=== FILE: README.md ===
# terminalllll, modelled in Dafny

terminalllll is a web page that imitates a Unix shell, plus a small
Node.js server that hands real pseudo-terminals to the browser. This project
models three parts of it as pure Dafny functions and proves properties about
them:

- **The fake shell** (`terminal.js`):
  - `handleInput` is a state machine over the command history, the history
    cursor and the input field. Keys are Enter, ArrowUp, ArrowDown and Tab.
  - `executeCommand` splits the line into a lower-cased command word and its
    arguments, then looks the word up in the fixed command table.
  - Each command's result is modelled as structured HTML. A piece is either
    a trusted literal or text passed through `escapeHtml`.
  - Also modelled: `autocomplete`, `readFile` (`cat`) and `listFiles` (`ls`)
    over the in-memory home directory, `changeTheme`, and `echo`.
- **The sign-up form** (`script.js`): the submit handler's five independent
  field checks and `isValidEmail`'s regular expression.
- **The terminal server** (`src/server.js`):
  - a registry from pid to pseudo-terminal;
  - `POST /terminals`, `POST /terminals/:pid/data` and
    `GET /terminals/:pid/data`;
  - the terminal's `exit` and `data` events;
  - the choice of shell.

  Every handler and event runs to completion on Node's event loop, so each is
  one atomic transition of a `State`.

Several JavaScript primitives are modelled exactly, by code point or by rule,
in `Text` and `Decimal`:

- `String.prototype.trim` and the regular-expression class `\s`, which share
  one whitespace set;
- `length` in UTF-16 code units;
- `split` and `join` on one separator;
- `String(pid)` as a property key.

`JsObject` models `obj[key]` on an object literal, which also finds the
properties every object inherits from `Object.prototype`. The three findings
below come from this behaviour.

Modules, one per file:

| module | role |
|---|---|
| `Wrappers` | `Option` |
| `Text` | JavaScript string primitives |
| `Decimal` | pid numerals |
| `JsObject` | property reads |
| `Markup` | HTML pieces and the "only trusted strings unescaped" predicate |
| `FileTree` | the fixture directory, `cat`, `ls` |
| `Commands` | parsing, dispatch, `theme` |
| `Terminal` | key handling |
| `Signup` | the form |
| `Server` | the registry and handlers |

## Model

| member | source | states |
|---|---|---|
| Text.Trim | terminal.js:62 | `trim()`; its contract is stated by the `Text.Trim…` lemmas below |
| Text.TrimStartSpec | terminal.js:62 | `trim` drops a whitespace-only prefix and stops at the first character that is not whitespace |
| Text.TrimEndSpec | terminal.js:62 | `trim` drops a whitespace-only suffix and stops at the last character that is not whitespace |
| Text.TrimIsTrimOf | terminal.js:62 | the trimmed line is the input less a whitespace prefix and a whitespace suffix, with neither end whitespace |
| Text.TrimIsTrimmed | terminal.js:62 | a trimmed line starts and ends with a character that is not whitespace |
| Text.TrimEmptyIffBlank | terminal.js:62-63 | the trimmed line is empty exactly when the whole input is whitespace, so only blank lines are skipped |
| Text.TrimFixedPoint | terminal.js:62 | trimming changes a string iff it has whitespace at an end; trimming twice equals trimming once |
| Text.TrimPadded | script.js:22 | whitespace padding around a core with no whitespace at either end is removed exactly |
| Text.Utf16Length | script.js:32 | `length` lies between the character count and twice it; it equals the character count iff no character is outside the Basic Multilingual Plane, and twice it iff every character is |
| Text.Utf16LengthOfChar | script.js:32 | one character is one code unit inside the Basic Multilingual Plane and two outside it |
| Text.Utf16LengthAppend | script.js:32 | `(a + b).length` is `a.length + b.length` |
| Text.Utf16LengthCountsAstral | script.js:32 | `length` is the character count plus one for each character outside the Basic Multilingual Plane |
| Text.Lower | terminal.js:98 | lower-casing keeps the length, maps each ASCII capital to its small letter, and leaves no ASCII capital |
| Text.LowerUnchanged | terminal.js:98 | a word without ASCII capitals is its own lower-case form |
| Text.IndexOf | terminal.js:97 | the position of the first separator, or the length when there is none |
| Text.Split | terminal.js:97 | `split(' ')` gives at least one piece, no piece holds the separator, joining the pieces gives the line back, and there is one piece iff the line has no separator |
| Text.SplitFirst | terminal.js:97-99 | `parts[0]` is the text before the first space; `parts.slice(1).join(' ')` is the text after it |
| Text.SplitJoin | terminal.js:97-99 | splitting a join of separator-free pieces gives back the pieces |
| Text.Join | terminal.js:99 | `join(' ')`: the pieces with one separator between neighbours; `Text.SplitJoin` and `Text.Split` state that it inverts `split` |
| JsObject.Get | terminal.js:101 | a bracket read yields the own property iff there is one; otherwise an inherited `Object.prototype` method iff the key names one (identified by the function's own name, so `constructor` is `Object`), the prototype object iff the key is `__proto__`, and `undefined` iff the key is not inherited |
| JsObject.MethodName | terminal.js:101 | the function stored under an `Object.prototype` key is named after the key, except `constructor`, which holds `Object` |
| FileTree.Names | terminal.js:171 | `Object.keys` lists the entry names in stored order; for a directory without array-index names, such as the home directory, that is insertion order |
| FileTree.Find | terminal.js:190 | the own-entry lookup finds a node iff the name is an entry name, and what it finds is that entry's node |
| FileTree.FindEntry | terminal.js:190 | with distinct names, looking up an entry's name finds that entry |
| FileTree.HomeContents | terminal.js:9-16 | the home directory `~` holds `documents`, `downloads` and `projects`, each an empty directory, then `README.txt` with its welcome text, in that order |
| FileTree.HomeHasUniqueNames | terminal.js:9-16 | the home directory's entry names are distinct |
| FileTree.HomeNamesAreNotIndices | terminal.js:9-16 | no home directory name is a decimal numeral, so none is an array index and `Object.keys` keeps insertion order |
| FileTree.ReadFile | terminal.js:185-204 | `cat` reports usage iff the name is empty, "not found" iff the name is not an entry, "is a directory" only for a directory entry, and otherwise that file's content |
| FileTree.ReadFileOfEntry | terminal.js:190-203 | `cat` of an entry's name shows the directory message for a directory and the content for a file |
| FileTree.CatHtml | terminal.js:186-203 | the file name and the content are always escaped; the rest is fixed template text |
| FileTree.CatHtmlAsWritten | terminal.js:190-203 | as written, a native method read as a file shows the escaped `String` of that built-in function (`function N() { [native code] }`, N its own name) inside the success template; everything else renders as `readFile` does |
| FileTree.ReadFileAsWritten | terminal.js:190-199 | the prototype-reaching lookup agrees with the own-entry one except on inherited property names |
| FileTree.InheritedNamesAreNotReportedMissing | terminal.js:190-199 | `cat toString` shows the function `toString`, `cat constructor` the function `Object`, and `cat __proto__` says "is a directory", where the own-entry lookup says "File not found" |
| FileTree.NativeObjectText | terminal.js:202 | the text escaped for the function `Object` is `function Object() { [native code] }`, its name followed by a native body |
| FileTree.CatConstructorShowsObject | terminal.js:190-203 | as written, `cat constructor` shows the escaped text `function Object() { [native code] }`, the `String` of the built-in function it reads; the own-entry lookup says "File not found" |
| FileTree.ListFiles | terminal.js:170-182 | `ls` gives one line per entry, in order, marked as a directory iff the entry is an object |
| FileTree.LsAgreesWithCat | terminal.js:170-204 | a non-empty name is listed iff `cat` finds it, and listed as a directory iff `cat` says it is one |
| FileTree.ListingLines | terminal.js:176-182 | the listing lines hold only template text, the two icons and the listed names |
| FileTree.ListHtml | terminal.js:170-183 | `ls` output holds only template text and the directory's own names, including the empty-directory line |
| Commands.Lookup | terminal.js:18-29 | a word finds a command iff it is one of the ten table keys, and the command found is the one with that name |
| Commands.LookupNameOf | terminal.js:18-29 | each command is found under its own name and under no other |
| Commands.FirstWord | terminal.js:97-98 | the command word is the longest space-free prefix of the line |
| Commands.Parse | terminal.js:97-99 | the command word is the lower-cased text before the first space; after it come one space and the arguments, verbatim |
| Commands.ParseWordThenArgs | terminal.js:97-99 | `word args` parses to the lower-cased word and exactly `args`, runs of spaces included |
| Commands.ParseOneWord | terminal.js:97-99 | a line without a space has no arguments |
| Commands.ChangeTheme | terminal.js:220-242 | a blank argument shows the current theme, an unsupported trimmed name is refused, and `dark` or `light` is selected |
| Commands.ThemeHtml | terminal.js:229-241 | a refused theme name is escaped; only a supported name appears unescaped |
| Commands.Invoke | terminal.js:19-28 | `clear` alone returns nothing, `echo` returns its arguments escaped, `cat` returns `readFile` of the arguments, and every result holds only trusted strings unescaped |
| Commands.Execute | terminal.js:97-111 | an unknown word is reported as not found and runs nothing; a known word runs its own table entry once, with the parsed arguments |
| Commands.Shown | terminal.js:103-110 | the lines `executeCommand` adds: none for a `null` result, the result itself, or the two "Command not found" lines; `Commands.ShownTrusted` states what they may contain |
| Commands.ShownTrusted | terminal.js:101-111 | every line added for an outcome holds only trusted strings unescaped; the unknown word is escaped |
| Commands.ExecuteShowsOnlyTrusted | terminal.js:92-111 | whatever line is typed, the text inserted as HTML never holds it unescaped |
| Commands.InvokeAsWritten | terminal.js:19-28 | the table entries as written: `cat` runs the prototype-reaching `readFile`, every other entry is `Commands.Invoke`; they agree unless `cat` is given an inherited name, and no result holds untrusted text unescaped |
| Commands.ExecuteAsWritten | terminal.js:97-102 | the prototype-reaching table lookup: off inherited command words it is the own-property dispatch with each entry run as written, so `cat` reads inherited names; a lower-cased word reaches `Object` exactly for `constructor`, and throws exactly for `__proto__` |
| Commands.LowerReachesOnlyConstructor | terminal.js:98-101 | a lower-cased word names no inherited method except `constructor` |
| Commands.ShownAsWritten | terminal.js:102-106 | as written, `Object(args)` is inserted as HTML with the arguments unescaped, and a throw adds nothing |
| Commands.ConstructorInjectsMarkup | terminal.js:97-106 | as written, `constructor <img src=x onerror=alert(1)>` puts the typed markup into the page unescaped |
| Commands.PayloadIsUntrusted | terminal.js:101-111 | the typed markup is none of the shell's own strings |
| Commands.ExecuteAsWrittenAgrees | terminal.js:97-102 | as written, a line behaves as under the own-property dispatch whenever its command word is not inherited and, for `cat`, neither is the file name |
| Commands.ExecuteCat | terminal.js:97-102 | a line whose command word is `cat` runs the `cat` entry once with the parsed arguments |
| Commands.ExecuteCatAsWritten | terminal.js:97-102 | as written, a `cat` line runs the `cat` entry with its prototype-reaching `readFile` |
| Commands.CatLine | terminal.js:97-102 | `cat name` runs the `cat` entry with `name`, as written and through the own-property dispatch |
| Commands.CatInherited | terminal.js:190-203 | given `toString` the `cat` entry as written shows native function text, given `__proto__` it says "is a directory", given `constructor` it shows `function Object() { [native code] }`; the own-property `cat` says "File not found" for `toString` and `__proto__` |
| Commands.CatInheritedNameLine | terminal.js:190-203 | typed in the shell, `cat toString` and `cat __proto__` are not reported missing as written, where the own-property dispatch reports both |
| Commands.InheritedWordsAreNotReportedMissing | terminal.js:101-111 | `constructor args` calls `Object`, and `__proto__` throws a TypeError, instead of "Command not found" |
| Commands.ConstructorLine | terminal.js:97-102 | the line `constructor args` reaches the inherited `constructor` as written and is not found by the own-property lookup |
| Commands.ProtoLine | terminal.js:97-102 | the line `__proto__` throws as written and is not found by the own-property lookup |
| Terminal.InitialIsValid | terminal.js:6-7 | the constructor's empty history and cursor -1 satisfy the invariant |
| Terminal.PressEnter | terminal.js:61-70 | Enter on a non-blank line appends the trimmed line, moves the cursor past the end and executes that line; on a blank line it only echoes a prompt; the input is cleared either way |
| Terminal.PressEnterAsWritten | terminal.js:61-70 | over the dispatch as written, Enter agrees with `PressEnter` unless the command throws; then the line is recorded and the cursor moves, but the input is not cleared |
| Terminal.ProtoStaysInInput | terminal.js:61-70 | `__proto__` and Enter records the line and leaves it in the input field, where the own-property dispatch clears it |
| Terminal.PressUp | terminal.js:71-76 | ArrowUp steps the cursor back and shows that entry, never moves it below 0, and does nothing at or before the first entry |
| Terminal.PressDown | terminal.js:77-85 | ArrowDown steps forward and shows that entry, or moves past the end and clears the input |
| Terminal.Filter | terminal.js:246 | the names starting with the typed text, and only those, kept in their original order, with no repeats |
| Terminal.Matches | terminal.js:246 | the candidates are exactly the command names that start with the input, each once, in the command table's order |
| Terminal.Autocomplete | terminal.js:244-262 | one candidate replaces the input, several are shown and the input is kept, none changes nothing; history is untouched |
| Terminal.HandleKey | terminal.js:60-90 | every key keeps the cursor within `-1 .. history.length` and keeps the history invariant |
| Terminal.EnterKeepsValid | terminal.js:61-70 | Enter records only non-blank trimmed lines and keeps the cursor in range |
| Terminal.Step | terminal.js:60-90 | a key press or an edit of the input field keeps the invariant |
| Terminal.Run | terminal.js:60-90 | the cursor stays in range and the history never shrinks |
| Terminal.RunKeepsValid | terminal.js:60-90 | every event sequence preserves the invariant |
| Terminal.ReachableIsValid | terminal.js:6-7 | every reachable state has the cursor in range, cursor -1 only before the first entry, and only non-blank trimmed entries |
| Terminal.UpWalksBack | terminal.js:71-76 | `n` ArrowUps walk back `n` entries and show the entry reached |
| Terminal.EnterThenUpRecalls | terminal.js:61-76 | right after a line is entered, ArrowUp shows exactly that line |
| Terminal.UpThenDownRestores | terminal.js:71-85 | ArrowDown undoes ArrowUp when the input shows what the cursor points at |
| Terminal.NamesArePrefixFree | terminal.js:18-29 | no command name is a proper prefix of another |
| Terminal.DistinctAllSame | terminal.js:246-250 | a repeat-free candidate list whose members are all one name is that single name |
| Terminal.TabIsIdempotent | terminal.js:244-262 | a second Tab changes nothing the first did not |
| Signup.IsValidEmail | script.js:55-58 | `isValidEmail`: one `@` with a non-empty part before it, then a domain with a `.` that is neither its first nor its last character, and no whitespace or second `@` anywhere; `Signup.EmailCheckIsPattern` states that this is the regular expression |
| Signup.EmailCheckIsPattern | script.js:55-58 | the direct check accepts exactly the strings matching `^[^\s@]+@[^\s@]+\.[^\s@]+$` |
| Signup.CheckedEmailMatches | script.js:55-58 | an address the direct check accepts matches the regular expression |
| Signup.MatchingEmailChecks | script.js:55-58 | an address matching the regular expression passes the direct check |
| Signup.EmailNeedsFiveCharacters | script.js:27-30 | a valid address has at least five characters, an `@` and a `.` |
| Signup.Passes | script.js:22-42 | one field's check: trimmed name of two or more code units, a valid email, a password of eight or more code units, matching confirmation, accepted terms; `Signup.Validate` and `Signup.AcceptedIffAllChecksPass` state what the form does with it |
| Signup.Failing | script.js:20-45 | the failing fields are exactly the fields whose check fails, in check order |
| Signup.EveryFieldIsChecked | script.js:20-45 | every field is checked, each once, in a fixed order |
| Signup.Validate | script.js:20-45 | a field gets an error iff its check fails, errors come in check order, and each carries its own field's message |
| Signup.Report | script.js:22-45 | each failing field reports its own message, on itself, in order |
| Signup.AcceptedIffAllChecksPass | script.js:20-50 | success is shown iff the trimmed name has at least 2 units, the email is valid, the password has at least 8 units, the confirmation equals it, and the terms are accepted |
| Signup.EmptyFieldsFail | script.js:22-35 | an empty name, email or password already fails its check |
| Signup.ShowsSuccess | script.js:47-50 | the success message is shown iff every one of the five field checks passes |
| Signup.MismatchAloneBlocks | script.js:37-40 | mismatched passwords are reported on the confirmation field and block success |
| Signup.PaddedNameIsRefused | script.js:22 | a one-letter name padded with spaces is refused |
| Signup.BlankPasswordIsLongEnough | script.js:32 | eight spaces pass the password length check |
| Signup.PasswordLengthCountsCodeUnits | script.js:32 | four emoji pass the eight-unit password check |
| Decimal.Show | src/server.js:29 | `String(pid)` is a non-empty digit string without a leading zero |
| Decimal.ParseShow | src/server.js:29-40 | reading back a printed pid gives the pid |
| Decimal.Parse | src/server.js:40-51 | a path segment names a pid iff it is a canonical decimal numeral, the only keys `String(pid)` produces |
| Decimal.ShowParse | src/server.js:29-40 | printing a canonical numeral's value gives the numeral back |
| Decimal.LeadingDigitPositive | src/server.js:40 | a digit string whose first digit is not 0 has a positive value |
| Decimal.ParseIffShow | src/server.js:29-40 | a segment names pid `n` iff it is `String(n)` |
| Server.ShellFor | src/server.js:16 | the shell is `powershell.exe` iff the platform is `win32`, and `bash` otherwise |
| Server.SpawnOptionsFor | src/server.js:20-26 | the platform's shell with no arguments, `xterm-color`, 80 by 30, started in `$HOME` |
| Server.StartIsValid | src/server.js:13 | the empty registry satisfies the invariant |
| Server.Lookup | src/server.js:40 | a segment finds a handle iff it is the numeral of a registered pid, and the handle found is that pid's |
| Server.LookupShow | src/server.js:29-40 | a registered pid's numeral finds its handle |
| Server.Create | src/server.js:19-36 | a failed spawn answers 500 and changes nothing; otherwise the new terminal is stored under its pid, replacing any earlier entry, and the pid is returned |
| Server.Write | src/server.js:42 | `term.write(body)` queues the body after what that terminal was sent before; nothing else changes |
| Server.Send | src/server.js:39-47 | a registered pid gets the body written once and 200; otherwise 404 and nothing changes; no other terminal is touched |
| Server.Attach | src/server.js:53-55 | `term.on('data', ...)` adds one listener after the existing ones, empty and starting at the current output; nothing else changes |
| Server.Read | src/server.js:50-59 | a registered pid gets one new listener, starting empty at the current output, and the response stays open; otherwise 404 and nothing changes |
| Server.Exit | src/server.js:31-33 | a live terminal's exit removes the registry entry for its pid, whichever terminal that entry names, and marks it dead |
| Server.Deliver | src/server.js:53-55 | every listener writes the chunk to its response |
| Server.Emit | src/server.js:53-55 | the terminal's output gains the chunk and each of its listeners forwards it, whether or not its exit was delivered; nothing else changes |
| Server.DataAfterExitIsForwarded | src/server.js:31-55 | data printed after the exit callback still reaches every listener, since none is detached |
| Server.Step | src/server.js:19-59 | every request and terminal event keeps the registry invariant, and handles are never dropped |
| Server.CreateKeepsValid | src/server.js:28-29 | registering a new terminal keeps the invariant |
| Server.SendKeepsValid | src/server.js:40-43 | writing to a terminal keeps the invariant |
| Server.ExitKeepsValid | src/server.js:31-33 | the exit callback keeps the invariant |
| Server.ReadKeepsValid | src/server.js:51-55 | attaching a listener keeps every listener in step with its terminal's output |
| Server.EmitKeepsValid | src/server.js:53-55 | printing keeps every listener's response equal to the output since it attached |
| Server.Run | src/server.js:19-59 | every sequence of requests and events keeps the invariant |
| Server.StepExtends | src/server.js:19-59 | no event takes back response data, forgets a write or detaches a listener |
| Server.SendExtends | src/server.js:39-47 | a write request only adds to what was written |
| Server.ReadExtends | src/server.js:50-59 | a read request only adds a listener |
| Server.EmitExtends | src/server.js:53-55 | printing only adds to output and to each response |
| Server.RunExtends | src/server.js:19-59 | over any run, responses, writes and listeners only grow |
| Server.CreateThenSend | src/server.js:28-43 | the pid returned by `POST /terminals` addresses the new terminal, and a write reaches it |
| Server.ExitedAnswers404 | src/server.js:31-58 | after a terminal exits, both data routes answer 404 for its pid |
| Server.UnregisteredIsNotFound | src/server.js:40 | an unregistered pid's numeral finds nothing |
| Server.StepKeepsGone | src/server.js:19-59 | only spawning a process with pid `p` registers `p` |
| Server.StaysGone | src/server.js:19-59 | an unregistered pid stays unreachable until a process with that pid is spawned |
| Server.StaleExitUnregistersSuccessor | src/server.js:28-33 | an exit still pending when its pid is reused unregisters the new, still-running terminal |
| Server.PrintAll | src/server.js:53-55 | printing a sequence of chunks keeps the invariant and the registry |
| Server.PrintAllOutput | src/server.js:53-55 | printing chunks appends them to the output in order and keeps the listeners |
| Server.ReadThenPrint | src/server.js:50-55 | a read request receives exactly what is printed after it, in order, and nothing printed before |
| Server.SendAsWritten | src/server.js:39-47 | as written, a segment naming an inherited property answers 500; otherwise as `Send` |
| Server.ReadAsWritten | src/server.js:50-59 | as written, a segment naming an inherited property answers 500; otherwise as `Read` |
| Server.InheritedIsNoPid | src/server.js:40 | no inherited property name is a pid numeral |
| Server.InheritedPidAnswers500 | src/server.js:39-59 | `constructor` and `__proto__` answer 500 as written, where the own-property lookup answers 404 |

## Left out

- The page itself is not modelled. This covers `addOutput`, `scrollToBottom`, the welcome banner, focus handling and `document`. A command's result is a sequence of HTML pieces, and Enter reports the line it executes as an effect.
- `escapeHtml` is not computed: it goes through the browser's serialisation. An `Escaped` piece stands for its output.
- The text of the `help` and `about` blocks is not modelled. Each is a fixed piece.
- `date` reads the clock and the locale's date format. Its text is the parameter `now`.
- `clear` is modelled only as returning no result. The emptying of the screen is part of the page.
- Text.Lower: maps ASCII letters only. `toLowerCase` also maps other characters, and two of them lower to ASCII text: U+0130 becomes `i` followed by the combining dot U+0307, and the Kelvin sign U+212A becomes `k`. The combining dot stays in the word and no command name contains `k`, so no non-ASCII word lowers to a command name and dispatch is unaffected.
- The inline candidate line that Tab shows is reported as the typed text and the matches. Both are escaped in the source; their rendering is not modelled.
- `executeCommand`'s echo of `$ <line>` is not modelled. That text is escaped and inserted as text, not HTML.
- In script.js, `showError`, `clearErrors` and `showSuccessMessage` are left out. They are page manipulation: the model gives the errors and whether success is shown.
- `src/electron.js` is not part of this model.
- In the server, several things are left out: `express.static`, the listening port, `process.env`, and the content of the environment passed to the shell.
- Spawning is a parameter: the pid the system assigns, or a failure, which Express answers with 500.
- A request body is the `text/plain` string. Bodies of other content types are not modelled.
- Response streams are never ended in the source. A listener's response is the sequence of chunks written to it.
- FileTree.NativeSource: the text `String(f)` gives for a built-in function is fixed as `function N() { [native code] }`, where N is the function's own name (`Object` for `constructor`, the key for every other method); this is the form browsers print. ECMAScript fixes only its shape, so the spacing can differ between engines.
- Server.Exit: models one exit event per live handle. This is how the pseudo-terminal library reports it. A second exit for the same handle is a no-op.
- Concurrency is modelled as atomic handler and event steps, the granularity of Node's event loop.

## Findings

| source | as written | input that shows it | evidently intended | confidence | as-written member | corrected member |
|---|---|---|---|---|---|---|
| terminal.js:101-111 | `this.commands[cmd]` also finds the properties every object inherits, and a non-null result is inserted as HTML | the line `constructor <img src=x onerror=alert(1)>` calls `Object` on the arguments and inserts them unescaped; the line `__proto__` throws a TypeError out of `handleInput` after the history push at line 64, so line 70 never clears the input | words that are not table keys are reported as "Command not found", and typed text never reaches the page unescaped | high, not executed | Commands.ExecuteAsWritten (with Commands.ShownAsWritten, Commands.InheritedWordsAreNotReportedMissing, Commands.ConstructorInjectsMarkup, Terminal.PressEnterAsWritten, Terminal.ProtoStaysInInput) | Commands.Execute (with Commands.ExecuteShowsOnlyTrusted) |
| terminal.js:190-199 | `this.fileSystem[this.currentPath][filename]` also finds inherited properties | `cat toString` shows the escaped source text of a native function, `cat constructor` that of `Object`; `cat __proto__` says "__proto__ is a directory" | names that are not entries are reported as "File not found" | high, not executed | FileTree.ReadFileAsWritten (with FileTree.InheritedNamesAreNotReportedMissing, FileTree.CatConstructorShowsObject, FileTree.CatHtmlAsWritten, Commands.InvokeAsWritten, Commands.CatInheritedNameLine) | FileTree.ReadFile (with Commands.Invoke) |
| src/server.js:40-58 | `terminals[req.params.pid]` also finds inherited properties, and the handler then calls `write` or `on` on a value that has no such method | `POST /terminals/constructor/data` and `GET /terminals/__proto__/data` throw, and Express answers 500 | a pid that is not registered answers 404 | high, not executed | Server.SendAsWritten, Server.ReadAsWritten (with Server.InheritedPidAnswers500) | Server.Send, Server.Read |

=== FILE: commands.dfy ===
/** The fake shell's command line (terminal.js, `executeCommand`): parsing the
    line into a command word and its arguments, looking the word up in the
    fixed command table, and the commands' results as HTML. */
module Commands {
  import opened Wrappers
  import opened Text
  import opened Markup
  import FileTree
  import JsObject

  datatype Command = Help | Clear | Echo | Date | Whoami | Pwd | Ls | Cat | About | Theme

  /** The command table's keys in declaration order (`Object.keys`). */
  const CommandNames: seq<string> :=
    ["help", "clear", "echo", "date", "whoami", "pwd", "ls", "cat", "about", "theme"]

  function NameOf(c: Command): string {
    match c
    case Help => "help"
    case Clear => "clear"
    case Echo => "echo"
    case Date => "date"
    case Whoami => "whoami"
    case Pwd => "pwd"
    case Ls => "ls"
    case Cat => "cat"
    case About => "about"
    case Theme => "theme"
  }

  /** The own property `cmd` of the command table. */
  function Lookup(cmd: string): (r: Option<Command>)
    ensures r.Some? <==> cmd in CommandNames
    ensures r.Some? ==> NameOf(r.value) == cmd
  {
    if cmd == "help" then Some(Help)
    else if cmd == "clear" then Some(Clear)
    else if cmd == "echo" then Some(Echo)
    else if cmd == "date" then Some(Date)
    else if cmd == "whoami" then Some(Whoami)
    else if cmd == "pwd" then Some(Pwd)
    else if cmd == "ls" then Some(Ls)
    else if cmd == "cat" then Some(Cat)
    else if cmd == "about" then Some(About)
    else if cmd == "theme" then Some(Theme)
    else None
  }

  /** Every command is found under its own name and no other. */
  lemma LookupNameOf(c: Command, cmd: string)
    ensures Lookup(NameOf(c)) == Some(c)
    ensures Lookup(cmd) == Some(c) <==> cmd == NameOf(c)
  {
  }

  // ---------------------------------------------------------------- parsing

  datatype CommandLine = CommandLine(cmd: string, args: string)

  /** The text before the first space. */
  function FirstWord(s: string): (w: string)
    ensures w <= s && ' ' !in w
    ensures |w| < |s| ==> s[|w|] == ' '
  {
    s[..IndexOf(s, ' ')]
  }

  /** `parts = input.split(' ')`, `cmd = parts[0].toLowerCase()`,
      `args = parts.slice(1).join(' ')`: the command word is the lower-cased
      text before the first space and the arguments are everything after that
      space, runs of spaces included. */
  function Parse(input: string): (p: CommandLine)
    ensures p.cmd == Lower(FirstWord(input))
    ensures input == FirstWord(input) + (if ' ' in input then [' '] + p.args else [])
    ensures ' ' !in input ==> p.args == []
  {
    var parts := Split(input, ' ');
    SplitFirst(input, ' ');
    var i := IndexOf(input, ' ');
    assert input == input[..i] + (if i < |input| then [' '] + input[i + 1..] else []);
    CommandLine(Lower(parts[0]), Join(parts[1..], ' '))
  }

  /** A line that starts with a word and a space parses to that word and the
      exact remainder. */
  lemma ParseWordThenArgs(word: string, args: string)
    requires ' ' !in word
    ensures Parse(word + [' '] + args) == CommandLine(Lower(word), args)
  {
    var input := word + [' '] + args;
    assert input[|word|] == ' ' && input[..|word|] == word;
    IndexOfFirst(input, ' ', |word|);
    assert input[|word| + 1..] == args;
  }

  /** A line without a space is all command word and has no arguments. */
  lemma ParseOneWord(word: string)
    requires ' ' !in word
    ensures Parse(word) == CommandLine(Lower(word), [])
  {
  }

  // ---------------------------------------------------------------- theme

  const SupportedThemes: seq<string> := ["dark", "light"]

  datatype ThemeResult = CurrentTheme | Unsupported(name: string) | Selected(name: string)

  /** `changeTheme(args)`: the trimmed argument is the theme name; no name
      shows the current theme, a name outside `dark`/`light` is refused, a
      supported name is acknowledged. */
  function ChangeTheme(args: string): (r: ThemeResult)
    ensures r == CurrentTheme <==> AllWhitespace(args)
    ensures r.Unsupported? <==> Trim(args) != [] && Trim(args) !in SupportedThemes
    ensures r.Selected? <==> Trim(args) in SupportedThemes
    ensures !r.CurrentTheme? ==> r.name == Trim(args)
  {
    var name := Trim(args);
    TrimEmptyIffBlank(args);
    if name == [] then CurrentTheme
    else if name !in SupportedThemes then Unsupported(name)
    else Selected(name)
  }

  const CurrentThemeLine: string :=
    "<div class=\"info-line\">Current theme: dark (default). Supported themes: dark, light</div>"
  const UnsupportedOpen: string := "<div class=\"error-line\">Unsupported theme \""
  const UnsupportedClose: string := "\". Supported themes: dark, light</div>"
  const SelectedOpen: string := "<div class=\"info-line\">Theme switching coming soon! (selected theme: "
  const SelectedClose: string := ")</div>"

  const ThemeLiterals: set<string> :=
    {CurrentThemeLine, UnsupportedOpen, UnsupportedClose, SelectedOpen, SelectedClose, "dark", "light"}

  /** A refused name is shown escaped; only a supported name is shown as is. */
  function ThemeHtml(r: ThemeResult): (h: Html)
    requires r.Selected? ==> r.name in SupportedThemes
    ensures OnlyTrusted(h, ThemeLiterals)
  {
    match r
    case CurrentTheme => [Literal(CurrentThemeLine)]
    case Unsupported(n) => [Literal(UnsupportedOpen), Escaped(n), Literal(UnsupportedClose)]
    case Selected(n) => [Literal(SelectedOpen), Literal(n), Literal(SelectedClose)]
  }

  // ---------------------------------------------------------------- dispatch

  /** The strings the shell may place in the page unescaped: its own
      templates, the fixture's entry names, the supported theme names and the
      clock text `now`. */
  function Trusted(now: string): set<string> {
    FileTree.CatLiterals + FileTree.ListLiterals + (set n | n in FileTree.Names(FileTree.Home))
    + ThemeLiterals + {now, "guest", "~", CommandNotFoundOpen, FileTree.DivClose, HelpHintLine}
  }

  /** The result of a table entry invoked with `args`; `clear` returns nothing
      (it empties the screen). `now` is the clock's formatted date and time. */
  function Invoke(c: Command, args: string, now: string): (r: Option<Html>)
    ensures r.None? <==> c == Clear
    ensures c == Echo ==> r == Some([Escaped(args)])
    ensures c == Cat ==> r == Some(FileTree.CatHtml(FileTree.ReadFile(FileTree.Home, args)))
    ensures r.Some? ==> OnlyTrusted(r.value, Trusted(now))
  {
    match c
    case Help => Some([Fixed(HelpBlock)])
    case Clear => None
    case Echo => Some([Escaped(args)])
    case Date => Some([Literal(now)])
    case Whoami => Some([Literal("guest")])
    case Pwd => Some([Literal("~")])
    case Ls => Some(FileTree.ListHtml(FileTree.Home))
    case Cat => Some(FileTree.CatHtml(FileTree.ReadFile(FileTree.Home, args)))
    case About => Some([Fixed(AboutBlock)])
    case Theme => Some(ThemeHtml(ChangeTheme(args)))
  }

  /** What `executeCommand` did: ran exactly one table entry once, with the
      parsed arguments, or reported the command word as not found. */
  datatype Outcome =
    | Ran(command: Command, args: string, result: Option<Html>)
    | NotFound(cmd: string)

  const CommandNotFoundOpen: string := "<div class=\"error-line\">Command not found: "
  const HelpHintLine: string := "<div class=\"info-line\">Type 'help' for available commands</div>"

  /** The HTML lines `executeCommand` adds for an outcome. */
  function Shown(o: Outcome): seq<Html> {
    match o
    case Ran(_, _, None) => []
    case Ran(_, _, Some(h)) => [h]
    case NotFound(cmd) =>
      [[Literal(CommandNotFoundOpen), Escaped(cmd), Literal(FileTree.DivClose)], [Literal(HelpHintLine)]]
  }

  /** `executeCommand(input)`: an unknown command word is reported and runs
      nothing; a known one runs its own table entry with the text after the
      first space. What is shown never contains the typed line unescaped. */
  function Execute(input: string, now: string): (r: Outcome)
    ensures r.NotFound? <==> Parse(input).cmd !in CommandNames
    ensures r.NotFound? ==> r.cmd == Parse(input).cmd
    ensures r.Ran? ==> NameOf(r.command) == Parse(input).cmd && r.args == Parse(input).args
    ensures r.Ran? ==> r.result == Invoke(r.command, r.args, now)
  {
    var p := Parse(input);
    match Lookup(p.cmd)
    case Some(c) => Ran(c, p.args, Invoke(c, p.args, now))
    case None => NotFound(p.cmd)
  }

  /** Whatever line is typed, every piece `executeCommand` inserts into the
      page unescaped is one of the shell's own strings: the typed text only
      ever appears escaped. */
  lemma ExecuteShowsOnlyTrusted(input: string, now: string)
    ensures forall k :: 0 <= k < |Shown(Execute(input, now))| ==>
              OnlyTrusted(Shown(Execute(input, now))[k], Trusted(now))
  {
    ShownTrusted(Execute(input, now), now);
  }

  lemma ShownTrusted(o: Outcome, now: string)
    requires o.Ran? ==> o.result == Invoke(o.command, o.args, now)
    ensures forall k :: 0 <= k < |Shown(o)| ==> OnlyTrusted(Shown(o)[k], Trusted(now))
  {
    if o.NotFound? {
      assert CommandNotFoundOpen in Trusted(now) && FileTree.DivClose in Trusted(now);
      assert HelpHintLine in Trusted(now);
    }
  }

  /** A table entry invoked as the source writes it: every entry but `cat`
      is `Invoke`, and `cat` runs `readFile` with its prototype-reaching
      lookup. The two agree unless `cat` is given an inherited name. */
  function InvokeAsWritten(c: Command, args: string, now: string): (r: Option<Html>)
    ensures c != Cat ==> r == Invoke(c, args, now)
    ensures c == Cat ==>
              r == Some(FileTree.CatHtmlAsWritten(FileTree.ReadFileAsWritten(FileTree.Home, args)))
    ensures c != Cat || !JsObject.IsInherited(args) ==> r == Invoke(c, args, now)
    ensures r.Some? ==> OnlyTrusted(r.value, Trusted(now))
  {
    if c == Cat then
      var h := FileTree.CatHtmlAsWritten(FileTree.ReadFileAsWritten(FileTree.Home, args));
      assert FileTree.CatLiterals <= Trusted(now);
      Some(h)
    else Invoke(c, args, now)
  }

  /** `executeCommand` as the source writes it: `this.commands[cmd]` also
      finds the properties every object inherits. A lower-cased word can only
      reach the inherited method `constructor`, which is `Object`, and
      `__proto__`, an object, so calling it throws a TypeError. */
  datatype AsWritten =
    | Dispatched(outcome: Outcome)
    | CalledObject(args: string)
    | ThrewTypeError

  /** An outcome with its table entry run as written. */
  function EntryAsWritten(o: Outcome, now: string): (r: Outcome)
    ensures o.NotFound? ==> r == o
    ensures o.Ran? ==> r == o.(result := InvokeAsWritten(o.command, o.args, now))
  {
    if o.Ran? then o.(result := InvokeAsWritten(o.command, o.args, now)) else o
  }

  function ExecuteAsWritten(input: string, now: string): (r: AsWritten)
    ensures !JsObject.IsInherited(Parse(input).cmd) ==>
              r == Dispatched(EntryAsWritten(Execute(input, now), now))
    ensures r.CalledObject? <==> Parse(input).cmd == "constructor"
    ensures r.CalledObject? ==> r.args == Parse(input).args
    ensures r.ThrewTypeError? <==> Parse(input).cmd == JsObject.ProtoAccessor
  {
    var p := Parse(input);
    LowerReachesOnlyConstructor(FirstWord(input));
    var found: JsObject.Property<Command> := JsObject.Get(Lookup(p.cmd), p.cmd);
    match found
    case Own(c) =>
      assert Execute(input, now) == Ran(c, p.args, Invoke(c, p.args, now));
      Dispatched(Ran(c, p.args, InvokeAsWritten(c, p.args, now)))
    case Undefined => Dispatched(NotFound(p.cmd))
    case InheritedMethod(_) => CalledObject(p.args)
    case InheritedObject => ThrewTypeError
  }

  /** Off inherited names the code as written does what the own-property
      dispatch does: the command word must not be inherited, and neither
      may `cat`'s argument. */
  lemma ExecuteAsWrittenAgrees(input: string, now: string)
    requires !JsObject.IsInherited(Parse(input).cmd)
    requires Parse(input).cmd == "cat" ==> !JsObject.IsInherited(Parse(input).args)
    ensures ExecuteAsWritten(input, now) == Dispatched(Execute(input, now))
  {
    if Parse(input).cmd == "cat" {
      ExecuteCat(input, now);
      ExecuteCatAsWritten(input, now);
    } else {
      var o := Execute(input, now);
      assert o.Ran? ==> o.command != Cat;
    }
  }

  /** Every inherited method name but `constructor` has a capital letter, so
      a lower-cased word cannot name it. */
  lemma LowerReachesOnlyConstructor(w: string)
    ensures Lower(w) in JsObject.PrototypeMethods ==> Lower(w) == "constructor"
  {
    var l := Lower(w);
    assert l != "hasOwnProperty" by { assert |l| < 4 || l[3] != 'O'; }
    assert l != "isPrototypeOf" by { assert |l| < 3 || l[2] != 'P'; }
    assert l != "propertyIsEnumerable" by { assert |l| < 9 || l[8] != 'I'; }
    assert l != "toLocaleString" by { assert |l| < 3 || l[2] != 'L'; }
    assert l != "toString" by { assert |l| < 3 || l[2] != 'S'; }
    assert l != "valueOf" by { assert |l| < 6 || l[5] != 'O'; }
    assert l != "__defineGetter__" && l != "__lookupGetter__" by { assert |l| < 9 || l[8] != 'G'; }
    assert l != "__defineSetter__" && l != "__lookupSetter__" by { assert |l| < 9 || l[8] != 'S'; }
  }

  /** What the page shows for an outcome as written. `Object(args)` returns a
      wrapper of the argument string, which is neither `undefined` nor `null`,
      so it is inserted as HTML, unescaped. A throw shows nothing after the
      echoed command line. */
  function ShownAsWritten(a: AsWritten): (lines: seq<Html>)
    ensures a.Dispatched? ==> lines == Shown(a.outcome)
    ensures a.CalledObject? ==> lines == [[Literal(a.args)]]
    ensures a.ThrewTypeError? ==> lines == []
  {
    match a
    case Dispatched(o) => Shown(o)
    case CalledObject(args) => [[Literal(args)]]
    case ThrewTypeError => []
  }

  /** `constructor` and `__proto__` are not commands, yet the code as written
      does not report them as not found; the own-property lookup does. */
  lemma InheritedWordsAreNotReportedMissing(args: string, now: string)
    ensures "constructor" !in CommandNames && "__proto__" !in CommandNames
    ensures ExecuteAsWritten("constructor " + args, now) == CalledObject(args)
    ensures ExecuteAsWritten("__proto__", now) == ThrewTypeError
    ensures Execute("constructor " + args, now) == NotFound("constructor")
    ensures Execute("__proto__", now) == NotFound("__proto__")
  {
    ConstructorLine(args, now);
    ProtoLine(now);
  }

  lemma ConstructorLine(args: string, now: string)
    ensures ExecuteAsWritten("constructor " + args, now) == CalledObject(args)
    ensures Execute("constructor " + args, now) == NotFound("constructor")
  {
    LowerUnchanged("constructor");
    assert "constructor " + args == "constructor" + [' '] + args;
    ParseWordThenArgs("constructor", args);
    assert Lookup("constructor").None?;
  }

  lemma ProtoLine(now: string)
    ensures ExecuteAsWritten("__proto__", now) == ThrewTypeError
    ensures Execute("__proto__", now) == NotFound("__proto__")
  {
    LowerUnchanged("__proto__");
    ParseOneWord("__proto__");
  }

  /** A line whose command word is `cat` runs the `cat` entry with the
      parsed arguments, through the own-property dispatch and as written. */
  lemma ExecuteCat(input: string, now: string)
    requires Parse(input).cmd == "cat"
    ensures Execute(input, now) == Ran(Cat, Parse(input).args, Invoke(Cat, Parse(input).args, now))
  {
    LookupNameOf(Cat, "cat");
  }

  lemma ExecuteCatAsWritten(input: string, now: string)
    requires Parse(input).cmd == "cat"
    ensures ExecuteAsWritten(input, now)
            == Dispatched(Ran(Cat, Parse(input).args, InvokeAsWritten(Cat, Parse(input).args, now)))
  {
    CatIsOwnWord();
    ExecuteCat(input, now);
  }

  /** `cat` is already lower case and is not an inherited property name. */
  lemma CatIsOwnWord()
    ensures Lower("cat") == "cat"
    ensures !JsObject.IsInherited("cat")
  {
    LowerUnchanged("cat");
  }

  /** `cat`, a space and `args` parse to the word `cat` and exactly `args`. */
  lemma CatParse(args: string)
    ensures Parse("cat" + [' '] + args) == CommandLine("cat", args)
  {
    ParseWordThenArgs("cat", args);
    CatIsOwnWord();
  }

  /** `cat name` runs the `cat` entry with `name`, through the own-property
      dispatch and as written. */
  lemma CatLine(name: string, now: string)
    ensures Execute("cat" + [' '] + name, now) == Ran(Cat, name, Invoke(Cat, name, now))
    ensures ExecuteAsWritten("cat" + [' '] + name, now)
            == Dispatched(Ran(Cat, name, InvokeAsWritten(Cat, name, now)))
  {
    CatParse(name);
    ExecuteCat("cat" + [' '] + name, now);
    ExecuteCatAsWritten("cat" + [' '] + name, now);
  }

  /** The `cat` entry given an inherited name: as written it reads the
      inherited property, the own-property lookup finds no file. */
  lemma CatInherited(now: string)
    ensures InvokeAsWritten(Cat, "toString", now)
            == Some(FileTree.CatHtml(FileTree.Contents(FileTree.NativeSource("toString"))))
    ensures Invoke(Cat, "toString", now) == Some(FileTree.CatHtml(FileTree.FileNotFound("toString")))
    ensures InvokeAsWritten(Cat, "__proto__", now) == Some(FileTree.CatHtml(FileTree.IsDirectory("__proto__")))
    ensures Invoke(Cat, "__proto__", now) == Some(FileTree.CatHtml(FileTree.FileNotFound("__proto__")))
    ensures InvokeAsWritten(Cat, "constructor", now)
            == Some(FileTree.CatHtml(FileTree.Contents("function Object() { [native code] }")))
  {
    FileTree.InheritedNamesAreNotReportedMissing();
    FileTree.CatConstructorShowsObject();
  }

  /** Typed in the shell, `cat toString` shows a native function's source
      text and `cat __proto__` calls the file a directory as written, where
      the own-property dispatch reports both as not found. */
  lemma CatInheritedNameLine(now: string)
    ensures ExecuteAsWritten("cat toString", now)
            == Dispatched(Ran(Cat, "toString",
                              Some(FileTree.CatHtml(FileTree.Contents(FileTree.NativeSource("toString"))))))
    ensures ExecuteAsWritten("cat __proto__", now)
            == Dispatched(Ran(Cat, "__proto__", Some(FileTree.CatHtml(FileTree.IsDirectory("__proto__")))))
    ensures Execute("cat toString", now)
            == Ran(Cat, "toString", Some(FileTree.CatHtml(FileTree.FileNotFound("toString"))))
    ensures Execute("cat __proto__", now)
            == Ran(Cat, "__proto__", Some(FileTree.CatHtml(FileTree.FileNotFound("__proto__"))))
  {
    assert "cat toString" == "cat" + [' '] + "toString";
    assert "cat __proto__" == "cat" + [' '] + "__proto__";
    CatLine("toString", now);
    CatLine("__proto__", now);
    CatInherited(now);
  }

  /** Markup typed after `constructor` reaches the page unescaped, which the
      own-property lookup never allows (`ExecuteShowsOnlyTrusted`). */
  const Payload: string := "<img src=x onerror=alert(1)>"

  lemma ConstructorInjectsMarkup(now: string)
    requires now != Payload
    ensures ShownAsWritten(ExecuteAsWritten("constructor " + Payload, now)) == [[Literal(Payload)]]
    ensures !OnlyTrusted(ShownAsWritten(ExecuteAsWritten("constructor " + Payload, now))[0], Trusted(now))
  {
    ConstructorLine(Payload, now);
    var lines: seq<Html> := ShownAsWritten(ExecuteAsWritten("constructor " + Payload, now));
    assert lines == [[Literal(Payload)]];
    PayloadIsUntrusted(now);
    assert lines[0][0].Literal? && lines[0][0].text !in Trusted(now);
  }

  lemma PayloadIsUntrusted(now: string)
    requires now != Payload
    ensures Payload !in Trusted(now)
  {
    assert Payload !in FileTree.Names(FileTree.Home);
    assert Payload !in FileTree.CatLiterals;
    assert Payload !in FileTree.ListLiterals;
    assert Payload !in ThemeLiterals;
  }
}

=== FILE: decimal.dfy ===
/** Decimal numerals of process ids. The server stores a terminal under its
    numeric pid, which JavaScript turns into the property key `String(pid)`;
    a request names the terminal by a path segment, which matches only that
    exact numeral. */
module Decimal {
  import opened Wrappers

  predicate IsDigit(c: char) {
    '0' <= c <= '9'
  }

  predicate AllDigits(s: string) {
    forall k :: 0 <= k < |s| ==> IsDigit(s[k])
  }

  function DigitChar(d: nat): (c: char)
    requires d < 10
    ensures IsDigit(c)
  {
    ('0' as int + d) as char
  }

  function DigitValue(c: char): (d: nat)
    requires IsDigit(c)
    ensures d < 10 && DigitChar(d) == c
  {
    c as int - '0' as int
  }

  /** `String(n)`: the shortest decimal numeral of `n`. */
  function Show(n: nat): (s: string)
    ensures |s| >= 1 && AllDigits(s)
    ensures |s| > 1 ==> s[0] != '0'
    decreases n
  {
    if n < 10 then [DigitChar(n)]
    else Show(n / 10) + [DigitChar(n % 10)]
  }

  /** The value of a digit string, most significant digit first. */
  function Value(s: string): nat
    requires AllDigits(s)
  {
    if s == [] then 0
    else Value(s[..|s| - 1]) * 10 + DigitValue(s[|s| - 1])
  }

  /** A numeral `Show` can produce: digits only, no leading zero. */
  predicate IsCanonical(s: string) {
    |s| >= 1 && AllDigits(s) && (|s| > 1 ==> s[0] != '0')
  }

  /** The pid a path segment names, if it is the numeral of one. */
  function Parse(s: string): (r: Option<nat>)
    ensures r.Some? <==> IsCanonical(s)
  {
    if IsCanonical(s) then Some(Value(s)) else None
  }

  /** Reading back a printed pid gives the pid. */
  lemma {:induction false} ParseShow(n: nat)
    ensures Parse(Show(n)) == Some(n)
    decreases n
  {
    if n >= 10 {
      var s := Show(n);
      assert s[..|s| - 1] == Show(n / 10);
      assert DigitValue(s[|s| - 1]) == n % 10;
      ParseShow(n / 10);
      assert Value(s) == (n / 10) * 10 + n % 10;
    }
  }

  /** Printing a parsed numeral gives the numeral back. */
  lemma {:induction false} ShowParse(s: string)
    requires IsCanonical(s)
    ensures Show(Value(s)) == s
    decreases |s|
  {
    if |s| > 1 {
      var p := s[..|s| - 1];
      LeadingDigitPositive(p);
      ShowParse(p);
      assert s == p + [s[|s| - 1]];
    }
  }

  lemma {:induction false} LeadingDigitPositive(s: string)
    requires |s| >= 1 && AllDigits(s) && s[0] != '0'
    ensures Value(s) >= 1
    decreases |s|
  {
    if |s| > 1 {
      LeadingDigitPositive(s[..|s| - 1]);
    }
  }

  /** A path segment names the pid `n` exactly when it is `String(n)`. */
  lemma ParseIffShow(s: string, n: nat)
    ensures Parse(s) == Some(n) <==> s == Show(n)
  {
    ParseShow(n);
    if Parse(s) == Some(n) {
      ShowParse(s);
    }
  }
}

=== FILE: filetree.dfy ===
/** The in-memory fixture directory the fake shell lists and reads, and the
    `ls` and `cat` commands over it (terminal.js, `listFiles` and `readFile`).
    A directory is a JavaScript object literal whose own properties are its
    entries, stored in the order `Object.keys` lists them. JavaScript lists
    array-index names ("0", "1", ...) first, in ascending order, and the
    other names in insertion order; the fixture has no array-index names
    (`HomeNamesAreNotIndices`), so for it the stored order is insertion
    order. A directory entry is an object, a file entry is its content
    string. */
module FileTree {
  import opened Wrappers
  import opened Markup
  import JsObject
  import Decimal

  datatype Node = Dir(entries: seq<Entry>) | File(content: string)
  datatype Entry = Entry(name: string, node: Node)

  function Names(entries: seq<Entry>): (r: seq<string>)
    ensures |r| == |entries|
    ensures forall k :: 0 <= k < |entries| ==> r[k] == entries[k].name
  {
    seq(|entries|, k requires 0 <= k < |entries| => entries[k].name)
  }

  /** Property names of one object are distinct. */
  predicate UniqueNames(entries: seq<Entry>) {
    forall i, j :: 0 <= i < j < |entries| ==> entries[i].name != entries[j].name
  }

  /** The own property `name` of a directory. */
  function Find(entries: seq<Entry>, name: string): (r: Option<Node>)
    ensures r.None? <==> name !in Names(entries)
    ensures r.Some? ==> exists k :: 0 <= k < |entries| && entries[k] == Entry(name, r.value)
  {
    if entries == [] then None
    else if entries[0].name == name then Some(entries[0].node)
    else
      assert Names(entries) == [entries[0].name] + Names(entries[1..]);
      var r := Find(entries[1..], name);
      assert r.Some? ==> exists k :: 0 <= k < |entries[1..]| && entries[1..][k] == Entry(name, r.value);
      r
  }

  /** With distinct names, the entry found under a name is that entry's node. */
  lemma {:induction false} FindEntry(entries: seq<Entry>, k: nat)
    requires UniqueNames(entries) && k < |entries|
    ensures Find(entries, entries[k].name) == Some(entries[k].node)
  {
    if k > 0 {
      assert entries[0].name != entries[k].name;
      assert entries[1..][k - 1] == entries[k];
      FindEntry(entries[1..], k - 1);
    }
  }

  const ReadmeText: string := "Welcome to terminalllll - a fully functioning shell!"

  /** The fixture's home directory `~`, the only directory the shell ever
      looks at (its current path never changes). */
  const Home: seq<Entry> := [
    Entry("documents", Dir([])),
    Entry("downloads", Dir([])),
    Entry("projects", Dir([])),
    Entry("README.txt", File(ReadmeText))
  ]

  /** The fixture as the shell sees it: three empty directories and the
      README file, in insertion order. */
  lemma HomeContents()
    ensures Names(Home) == ["documents", "downloads", "projects", "README.txt"]
    ensures Find(Home, "documents") == Some(Dir([]))
    ensures Find(Home, "downloads") == Some(Dir([]))
    ensures Find(Home, "projects") == Some(Dir([]))
    ensures Find(Home, "README.txt") == Some(File(ReadmeText))
  {
    assert Names(Home) == ["documents", "downloads", "projects", "README.txt"];
    HomeHasUniqueNames();
    FindEntry(Home, 0);
    FindEntry(Home, 1);
    FindEntry(Home, 2);
    FindEntry(Home, 3);
  }

  lemma HomeHasUniqueNames()
    ensures UniqueNames(Home)
  {
  }

  /** No name in the home directory is an array index, since none is a
      decimal numeral; `Object.keys` therefore lists them in insertion
      order. */
  lemma HomeNamesAreNotIndices()
    ensures forall k :: 0 <= k < |Home| ==> !Decimal.IsCanonical(Home[k].name)
  {
    forall k | 0 <= k < |Home|
      ensures !Decimal.IsCanonical(Home[k].name)
    {
      assert !Decimal.IsDigit(Home[k].name[0]);
    }
  }

  // ---------------------------------------------------------------- cat

  /** What `readFile` reports, before it is rendered. */
  datatype CatResult =
    | UsageError
    | FileNotFound(name: string)
    | IsDirectory(name: string)
    | Contents(text: string)

  /** `readFile(filename)` over `dir`, looking only at the directory's own
      entries. The cases are tried in the source's order: empty name, missing
      entry, directory entry, file content. */
  function ReadFile(dir: seq<Entry>, filename: string): (r: CatResult)
    ensures r == UsageError <==> filename == []
    ensures r.FileNotFound? <==> filename != [] && filename !in Names(dir)
    ensures r.FileNotFound? ==> r.name == filename
    ensures r.IsDirectory? ==>
              r.name == filename && exists k :: 0 <= k < |dir| && dir[k].name == filename && dir[k].node.Dir?
    ensures r.Contents? ==>
              exists k :: 0 <= k < |dir| && dir[k] == Entry(filename, File(r.text))
  {
    if filename == [] then UsageError
    else
      match Find(dir, filename)
      case None => FileNotFound(filename)
      case Some(Dir(_)) => IsDirectory(filename)
      case Some(File(c)) => Contents(c)
  }

  /** `cat` of a listed name gives that entry: the directory message for a
      sub-directory, the content for a file. */
  lemma ReadFileOfEntry(dir: seq<Entry>, k: nat)
    requires UniqueNames(dir) && k < |dir| && dir[k].name != []
    ensures dir[k].node.Dir? ==> ReadFile(dir, dir[k].name) == IsDirectory(dir[k].name)
    ensures dir[k].node.File? ==> ReadFile(dir, dir[k].name) == Contents(dir[k].node.content)
  {
    FindEntry(dir, k);
  }

  const ErrorOpen: string := "<div class=\"error-line\">"
  const SuccessOpen: string := "<div class=\"success-line\">"
  const DivClose: string := "</div>"
  const UsageLine: string := "<div class=\"error-line\">Usage: cat <filename></div>"
  const NotFoundOpen: string := "<div class=\"error-line\">File not found: "
  const IsDirectoryClose: string := " is a directory</div>"

  const CatLiterals: set<string> :=
    {ErrorOpen, SuccessOpen, DivClose, UsageLine, NotFoundOpen, IsDirectoryClose}

  /** The HTML `readFile` returns: user-supplied names and file contents are
      escaped, everything else is a fixed template. */
  function CatHtml(r: CatResult): (h: Html)
    ensures OnlyTrusted(h, CatLiterals)
  {
    match r
    case UsageError => [Literal(UsageLine)]
    case FileNotFound(n) => [Literal(NotFoundOpen), Escaped(n), Literal(DivClose)]
    case IsDirectory(n) => [Literal(ErrorOpen), Escaped(n), Literal(IsDirectoryClose)]
    case Contents(t) => [Literal(SuccessOpen), Escaped(t), Literal(DivClose)]
  }

  /** `readFile` as the source writes it: `dir[filename]` also finds the
      properties every object inherits, so an inherited method is read as a
      file (its source text is shown) and `__proto__` as a directory. */
  datatype CatAsWritten = Reported(result: CatResult) | ShowsNativeFunction(name: string)

  function ReadFileAsWritten(dir: seq<Entry>, filename: string): (r: CatAsWritten)
    ensures !JsObject.IsInherited(filename) || filename in Names(dir) ==>
              r == Reported(ReadFile(dir, filename))
  {
    if filename == [] then Reported(UsageError)
    else
      var p: JsObject.Property<Node> := JsObject.Get(Find(dir, filename), filename);
      match p
      case Undefined => Reported(FileNotFound(filename))
      case Own(Dir(_)) => Reported(IsDirectory(filename))
      case Own(File(c)) => Reported(Contents(c))
      case InheritedObject => Reported(IsDirectory(filename))
      case InheritedMethod(m) => ShowsNativeFunction(m)
  }

  /** `String(f)` for the built-in function whose own `name` is `name`:
      browsers print a native function as its name followed by a
      `[native code]` body. */
  function NativeSource(name: string): string {
    "function " + name + "() { [native code] }"
  }

  /** The HTML `readFile` returns as written. A native method passes the
      `typeof file === 'object'` test and is escaped as file content, so
      even then only template text appears unescaped. */
  function CatHtmlAsWritten(r: CatAsWritten): (h: Html)
    ensures r.Reported? ==> h == CatHtml(r.result)
    ensures r.ShowsNativeFunction? ==> h == CatHtml(Contents(NativeSource(r.name)))
    ensures OnlyTrusted(h, CatLiterals)
  {
    match r
    case Reported(c) => CatHtml(c)
    case ShowsNativeFunction(m) => CatHtml(Contents(NativeSource(m)))
  }

  /** `cat constructor` as written shows the source text of the function
      `Object`, which is what `Object.prototype.constructor` holds. */
  lemma CatConstructorShowsObject()
    ensures CatHtmlAsWritten(ReadFileAsWritten(Home, "constructor"))
            == CatHtml(Contents("function Object() { [native code] }"))
    ensures ReadFile(Home, "constructor") == FileNotFound("constructor")
  {
    InheritedNamesAreNotReportedMissing();
    NativeObjectText();
    assert "constructor" !in Names(Home) by { HomeContents(); }
  }

  lemma NativeObjectText()
    ensures NativeSource("Object") == "function Object() { [native code] }"
  {
  }

  /** `cat toString` and `cat __proto__` name no fixture entry, yet neither is
      reported as "File not found" by the code as written; the own-entry
      lookup reports both. */
  lemma InheritedNamesAreNotReportedMissing()
    ensures "toString" !in Names(Home) && "__proto__" !in Names(Home)
    ensures ReadFileAsWritten(Home, "toString") == ShowsNativeFunction("toString")
    ensures ReadFileAsWritten(Home, "constructor") == ShowsNativeFunction("Object")
    ensures ReadFileAsWritten(Home, "__proto__") == Reported(IsDirectory("__proto__"))
    ensures ReadFile(Home, "toString") == FileNotFound("toString")
    ensures ReadFile(Home, "__proto__") == FileNotFound("__proto__")
  {
    assert Names(Home) == ["documents", "downloads", "projects", "README.txt"];
  }

  // ---------------------------------------------------------------- ls

  datatype Listing = Listing(name: string, isDirectory: bool)

  /** `listFiles()`: one line per own entry, in insertion order, marked as a
      directory exactly when the entry is an object. */
  function ListFiles(dir: seq<Entry>): (r: seq<Listing>)
    ensures |r| == |dir|
    ensures forall k :: 0 <= k < |dir| ==> r[k] == Listing(dir[k].name, dir[k].node.Dir?)
  {
    seq(|dir|, k requires 0 <= k < |dir| => Listing(dir[k].name, dir[k].node.Dir?))
  }

  /** `ls` and `cat` agree: a non-empty name is listed iff `cat` finds it, and
      it is listed as a directory iff `cat` says it is one. */
  lemma LsAgreesWithCat(dir: seq<Entry>, name: string)
    requires UniqueNames(dir) && name != []
    ensures (exists k :: 0 <= k < |dir| && ListFiles(dir)[k].name == name)
            <==> !ReadFile(dir, name).FileNotFound?
    ensures (exists k :: 0 <= k < |dir| && ListFiles(dir)[k] == Listing(name, true))
            <==> ReadFile(dir, name).IsDirectory?
  {
    if k :| 0 <= k < |dir| && dir[k].name == name {
      assert Names(dir)[k] == name;
      assert ListFiles(dir)[k] == Listing(name, dir[k].node.Dir?);
      ReadFileOfEntry(dir, k);
    } else {
      assert name !in Names(dir);
    }
  }

  const FolderIcon: string := "\U{1F4C1}"
  const FileIcon: string := "\U{1F4C4}"
  const OutputLineOpen: string := "<div class=\"output-line\">"
  const EmptyDirectoryLine: string := "<div class=\"info-line\">Directory is empty</div>"

  const ListLiterals: set<string> := {FolderIcon, FileIcon, OutputLineOpen, " ", DivClose, EmptyDirectoryLine}

  function ListingLines(ls: seq<Listing>): (h: Html)
    ensures OnlyTrusted(h, ListLiterals + set l | l in ls :: l.name)
  {
    if ls == [] then []
    else
      var line := [Literal(OutputLineOpen),
                   Literal(if ls[0].isDirectory then FolderIcon else FileIcon),
                   Literal(" "), Literal(ls[0].name), Literal(DivClose)];
      var rest := ListingLines(ls[1..]);
      assert OnlyTrusted(line, ListLiterals + set l | l in ls :: l.name);
      assert OnlyTrusted(rest, ListLiterals + set l | l in ls :: l.name) by {
        assert forall l :: l in ls[1..] ==> l in ls;
      }
      OnlyTrustedConcat(line, rest, ListLiterals + set l | l in ls :: l.name);
      line + rest
  }

  /** The HTML `listFiles` returns: fixed templates plus the directory's own
      entry names, and nothing typed by the user. */
  function ListHtml(dir: seq<Entry>): (h: Html)
    ensures OnlyTrusted(h, ListLiterals + set n | n in Names(dir))
  {
    var ls := ListFiles(dir);
    if ls == [] then [Literal(EmptyDirectoryLine)]
    else
      assert (set l | l in ls :: l.name) <= set n | n in Names(dir) by {
        forall l | l in ls ensures l.name in Names(dir) {
          var k :| 0 <= k < |ls| && ls[k] == l;
          assert Names(dir)[k] == l.name;
        }
      }
      ListingLines(ls)
  }
}

=== FILE: jsobject.dfy ===
/** Reading `obj[key]` on a plain JavaScript object literal. The programs use
    object literals as dictionaries; a bracket read consults the object's own
    properties first and then the properties every object inherits from
    `Object.prototype`. */
module JsObject {
  import opened Wrappers

  /** The function-valued properties of `Object.prototype`. */
  const PrototypeMethods: set<string> := {
    "constructor", "hasOwnProperty", "isPrototypeOf", "propertyIsEnumerable",
    "toLocaleString", "toString", "valueOf", "__defineGetter__",
    "__defineSetter__", "__lookupGetter__", "__lookupSetter__"
  }

  /** The accessor whose read yields `Object.prototype` itself, an object. */
  const ProtoAccessor: string := "__proto__"

  /** What `obj[key]` evaluates to. Only `Undefined` is falsy. An inherited
      method is identified by the built-in function's own `name`. */
  datatype Property<V> =
    | Own(value: V)
    | InheritedMethod(name: string)
    | InheritedObject
    | Undefined

  predicate IsInherited(key: string) {
    key in PrototypeMethods || key == ProtoAccessor
  }

  /** The `name` of the built-in function `Object.prototype[key]`: every
      method is named after its key, except that `constructor` holds the
      function `Object`. */
  function MethodName(key: string): (n: string)
    requires key in PrototypeMethods
    ensures n == "Object" <==> key == "constructor"
    ensures key != "constructor" ==> n == key
  {
    if key == "constructor" then "Object" else key
  }

  /** `obj[key]` for an object whose own property `key` is `own`. */
  function Get<V>(own: Option<V>, key: string): (p: Property<V>)
    ensures p.Own? <==> own.Some?
    ensures own.Some? ==> p == Own(own.value)
    ensures p.Undefined? <==> own.None? && !IsInherited(key)
    ensures p.InheritedMethod? <==> own.None? && key in PrototypeMethods
    ensures p.InheritedMethod? ==> key in PrototypeMethods && p.name == MethodName(key)
    ensures p.InheritedObject? <==> own.None? && key == ProtoAccessor
  {
    match own
    case Some(v) => Own(v)
    case None =>
      if key == ProtoAccessor then InheritedObject
      else if key in PrototypeMethods then InheritedMethod(MethodName(key))
      else Undefined
  }
}

=== FILE: markup.dfy ===
/** The HTML the fake shell's commands return. `escapeHtml` is implemented
    through the browser (a text node's serialisation), so it is not computed
    here: an `Escaped` piece is the escaped form of its text, whatever the
    escaping is. A `Literal` piece is inserted into the page unescaped. */
module Markup {

  /** The two fixed, multi-line blocks (`help` and `about`), whose wording is
      not part of this model. */
  datatype Block = HelpBlock | AboutBlock

  datatype Piece =
    | Literal(text: string)
    | Escaped(text: string)
    | Fixed(block: Block)

  type Html = seq<Piece>

  /** Every unescaped piece of `h` is one of the `trusted` strings. */
  predicate OnlyTrusted(h: Html, trusted: set<string>) {
    forall k :: 0 <= k < |h| ==> h[k].Literal? ==> h[k].text in trusted
  }

  lemma OnlyTrustedConcat(a: Html, b: Html, trusted: set<string>)
    requires OnlyTrusted(a, trusted) && OnlyTrusted(b, trusted)
    ensures OnlyTrusted(a + b, trusted)
  {
    forall k | 0 <= k < |a + b| && (a + b)[k].Literal?
      ensures (a + b)[k].text in trusted
    {
      if k >= |a| {
        assert (a + b)[k] == b[k - |a|];
      }
    }
  }
}

=== FILE: server.dfy ===
/** The terminal-session server (src/server.js): a registry from process id
    to pseudo-terminal, and the three HTTP handlers that create a terminal,
    write to it and stream its output. Each handler and each terminal event
    runs to completion on Node's single event loop, so each is one atomic
    transition here. The pseudo-terminal is an abstract handle: what was
    written to it, what it has printed, and the output listeners attached to
    it. Handles outlive their registration, because the source never detaches
    a listener or drops a handle, only the registry entry. */
module Server {
  import opened Wrappers
  import Decimal
  import JsObject

  datatype SpawnOptions = SpawnOptions(
    file: string, args: seq<string>, name: string, cols: nat, rows: nat, cwd: string)

  /** The host facts the server reads: `os.platform()` and `$HOME`. */
  datatype Config = Config(platform: string, home: string)

  /** The shell: PowerShell on Windows, bash everywhere else. */
  function ShellFor(platform: string): (shell: string)
    ensures shell == "powershell.exe" <==> platform == "win32"
    ensures shell in {"powershell.exe", "bash"}
  {
    if platform == "win32" then "powershell.exe" else "bash"
  }

  /** Every terminal is the platform's shell with no arguments, an
      `xterm-color` terminal of 80 columns by 30 rows, started in `$HOME`. */
  function SpawnOptionsFor(cfg: Config): (o: SpawnOptions)
    ensures o.file == ShellFor(cfg.platform) && o.args == [] && o.cwd == cfg.home
    ensures o.name == "xterm-color" && o.cols == 80 && o.rows == 30
  {
    SpawnOptions(ShellFor(cfg.platform), [], "xterm-color", 80, 30, cfg.home)
  }

  /** A `data` listener attached by a read request: the response it writes
      to, how much output the terminal had printed when it was attached, and
      the chunks it has written to the response so far. */
  datatype Listener = Listener(response: nat, attachedAt: nat, received: seq<string>)

  datatype Pty = Pty(
    pid: nat,
    options: SpawnOptions,
    alive: bool,
    written: seq<string>,     // every body written to the terminal, in order
    output: seq<string>,      // every chunk the terminal printed, in order
    listeners: seq<Listener>) // attached `data` listeners, in attach order

  /** `terminals` maps a pid to the handle (an index into `handles`) the
      registry holds for it. */
  datatype State = State(terminals: map<nat, nat>, handles: seq<Pty>)

  const Start: State := State(map[], [])

  datatype Reply = Created(pid: nat) | Status(code: nat) | Streaming

  /** Each registry entry names a live handle spawned with that pid, and every
      listener has received exactly what its terminal printed since it was
      attached. */
  predicate Valid(s: State) {
    && (forall p :: p in s.terminals ==>
          && s.terminals[p] < |s.handles|
          && s.handles[s.terminals[p]].pid == p
          && s.handles[s.terminals[p]].alive)
    && forall h :: 0 <= h < |s.handles| ==> InSync(s.handles[h])
  }

  predicate InSync(t: Pty) {
    forall k :: 0 <= k < |t.listeners| ==>
      && t.listeners[k].attachedAt <= |t.output|
      && t.listeners[k].received == t.output[t.listeners[k].attachedAt..]
  }

  lemma StartIsValid()
    ensures Valid(Start)
  {
  }

  // ---------------------------------------------------------------- lookup

  /** `terminals[req.params.pid]` read as an own property: the segment must
      be the numeral of a registered pid. */
  function Lookup(s: State, segment: string): (r: Option<nat>)
    ensures r.Some? <==> exists p :: p in s.terminals && Decimal.Show(p) == segment
    ensures r.Some? ==> exists p :: p in s.terminals && Decimal.Show(p) == segment && s.terminals[p] == r.value
  {
    match Decimal.Parse(segment)
    case Some(p) =>
      Decimal.ParseIffShow(segment, p);
      if p in s.terminals then Some(s.terminals[p])
      else
        assert forall q :: Decimal.Show(q) == segment ==> q == p by {
          forall q | Decimal.Show(q) == segment ensures q == p {
            Decimal.ParseIffShow(segment, q);
          }
        }
        None
    case None =>
      assert forall q :: Decimal.Show(q) != segment by {
        forall q ensures Decimal.Show(q) != segment {
          Decimal.ParseShow(q);
        }
      }
      None
  }

  /** The numeral of a registered pid finds that pid's handle. */
  lemma LookupShow(s: State, p: nat)
    requires p in s.terminals
    ensures Lookup(s, Decimal.Show(p)) == Some(s.terminals[p])
  {
    Decimal.ParseShow(p);
  }

  // ---------------------------------------------------------------- handlers

  /** `POST /terminals`. `spawned` is the pid of the process the pty library
      started, or `None` when spawning threw (Express then answers 500). The
      new handle is stored under its pid, replacing whatever was there. */
  function Create(s: State, cfg: Config, spawned: Option<nat>): (r: (State, Reply))
    ensures spawned.None? ==> r == (s, Status(500))
    ensures spawned.Some? ==>
              && r.1 == Created(spawned.value)
              && r.0.terminals == s.terminals[spawned.value := |s.handles|]
              && r.0.handles == s.handles + [Pty(spawned.value, SpawnOptionsFor(cfg), true, [], [], [])]
  {
    match spawned
    case None => (s, Status(500))
    case Some(pid) =>
      var t := Pty(pid, SpawnOptionsFor(cfg), true, [], [], []);
      (State(s.terminals[pid := |s.handles|], s.handles + [t]), Created(pid))
  }

  /** `term.write(body)`: the body is queued to that terminal after what was
      written before, and nothing else changes. */
  function Write(s: State, h: nat, body: string): (r: State)
    requires h < |s.handles|
    ensures r.terminals == s.terminals && |r.handles| == |s.handles|
    ensures r.handles[h].written == s.handles[h].written + [body]
    ensures r.handles[h] == s.handles[h].(written := r.handles[h].written)
    ensures forall g :: 0 <= g < |s.handles| && g != h ==> r.handles[g] == s.handles[g]
  {
    s.(handles := s.handles[h := s.handles[h].(written := s.handles[h].written + [body])])
  }

  /** `POST /terminals/:pid/data`: a registered terminal gets the body written
      to it once and the request gets 200; otherwise 404 and nothing changes.
      The registry itself never changes. */
  function Send(s: State, segment: string, body: string): (r: (State, Reply))
    requires Valid(s)
    ensures r.0.terminals == s.terminals && |r.0.handles| == |s.handles|
    ensures r.1 == Status(200) <==> Lookup(s, segment).Some?
    ensures r.1 != Status(200) ==> r == (s, Status(404))
    ensures r.1 == Status(200) ==>
              var h := Lookup(s, segment).value;
              && r.0.handles[h] == s.handles[h].(written := s.handles[h].written + [body])
              && forall g :: 0 <= g < |s.handles| && g != h ==> r.0.handles[g] == s.handles[g]
  {
    match Lookup(s, segment)
    case Some(h) => (Write(s, h, body), Status(200))
    case None => (s, Status(404))
  }

  /** `term.on('data', ...)` for response `response`: one more listener,
      after the existing ones, which has received nothing and starts at the
      terminal's current output; nothing else changes. */
  function Attach(s: State, h: nat, response: nat): (r: State)
    requires h < |s.handles|
    ensures r.terminals == s.terminals && |r.handles| == |s.handles|
    ensures |r.handles[h].listeners| == |s.handles[h].listeners| + 1
    ensures r.handles[h].listeners[..|s.handles[h].listeners|] == s.handles[h].listeners
    ensures r.handles[h].listeners[|s.handles[h].listeners|]
            == Listener(response, |s.handles[h].output|, [])
    ensures r.handles[h] == s.handles[h].(listeners := r.handles[h].listeners)
    ensures forall g :: 0 <= g < |s.handles| && g != h ==> r.handles[g] == s.handles[g]
  {
    var t := s.handles[h];
    s.(handles := s.handles[h := t.(listeners := t.listeners + [Listener(response, |t.output|, [])])])
  }

  /** `GET /terminals/:pid/data`: a registered terminal gets one more listener,
      which starts empty and forwards what is printed from now on, and the
      response stays open; otherwise 404 and nothing changes. */
  function Read(s: State, segment: string, response: nat): (r: (State, Reply))
    requires Valid(s)
    ensures r.0.terminals == s.terminals && |r.0.handles| == |s.handles|
    ensures r.1 == Streaming <==> Lookup(s, segment).Some?
    ensures r.1 != Streaming ==> r == (s, Status(404))
    ensures r.1 == Streaming ==>
              var h := Lookup(s, segment).value;
              && r.0.handles[h].listeners
                 == s.handles[h].listeners + [Listener(response, |s.handles[h].output|, [])]
              && r.0.handles[h].output == s.handles[h].output
              && r.0.handles[h].written == s.handles[h].written
              && forall g :: 0 <= g < |s.handles| && g != h ==> r.0.handles[g] == s.handles[g]
  {
    match Lookup(s, segment)
    case Some(h) => (Attach(s, h, response), Streaming)
    case None => (s, Status(404))
  }

  /** The terminal's `exit` event: the callback deletes the registry entry
      of the pid the handle was spawned with, whichever handle that entry
      names by then. An exit is reported once, for a live handle. */
  function Exit(s: State, h: nat): (r: State)
    ensures h < |s.handles| && s.handles[h].alive ==>
              && r.terminals == s.terminals - {s.handles[h].pid}
              && r.handles == s.handles[h := s.handles[h].(alive := false)]
    ensures !(h < |s.handles| && s.handles[h].alive) ==> r == s
  {
    if h < |s.handles| && s.handles[h].alive then
      State(s.terminals - {s.handles[h].pid}, s.handles[h := s.handles[h].(alive := false)])
    else s
  }

  function Deliver(ls: seq<Listener>, chunk: string): (r: seq<Listener>)
    ensures |r| == |ls|
    ensures forall k :: 0 <= k < |ls| ==>
              r[k] == ls[k].(received := ls[k].received + [chunk])
  {
    seq(|ls|, k requires 0 <= k < |ls| => ls[k].(received := ls[k].received + [chunk]))
  }

  /** The terminal's `data` event: every attached listener writes the chunk to
      its response. Listeners are never removed, so this holds whether or not
      the terminal's exit has already been delivered. */
  function Emit(s: State, h: nat, chunk: string): (r: State)
    ensures r.terminals == s.terminals && |r.handles| == |s.handles|
    ensures h >= |s.handles| ==> r == s
    ensures h < |s.handles| ==>
              && r.handles[h].pid == s.handles[h].pid
              && r.handles[h].options == s.handles[h].options
              && r.handles[h].alive == s.handles[h].alive
              && r.handles[h].written == s.handles[h].written
              && r.handles[h].output == s.handles[h].output + [chunk]
              && |r.handles[h].listeners| == |s.handles[h].listeners|
              && (forall k :: 0 <= k < |s.handles[h].listeners| ==>
                    r.handles[h].listeners[k]
                    == s.handles[h].listeners[k].(received := s.handles[h].listeners[k].received + [chunk]))
              && forall g :: 0 <= g < |s.handles| && g != h ==> r.handles[g] == s.handles[g]
  {
    if h < |s.handles| then
      var t := s.handles[h];
      s.(handles := s.handles[h := t.(output := t.output + [chunk], listeners := Deliver(t.listeners, chunk))])
    else s
  }

  /** Data the terminal prints after its exit was delivered still reaches
      every listener, because no listener is ever detached. */
  lemma DataAfterExitIsForwarded(s: State, h: nat, chunk: string)
    requires h < |s.handles|
    ensures var r := Emit(Exit(s, h), h, chunk);
            && !r.handles[h].alive
            && forall k :: 0 <= k < |s.handles[h].listeners| ==>
                 r.handles[h].listeners[k].received == s.handles[h].listeners[k].received + [chunk]
  {
  }

  // ---------------------------------------------------------------- runs

  datatype Event =
    | PostTerminals(spawned: Option<nat>)
    | PostData(segment: string, body: string)
    | GetData(segment: string, response: nat)
    | PtyData(handle: nat, chunk: string)
    | PtyExit(handle: nat)

  function Step(s: State, cfg: Config, e: Event): (r: State)
    requires Valid(s)
    ensures Valid(r)
    ensures |r.handles| >= |s.handles|
  {
    match e
    case PostTerminals(spawned) => CreateKeepsValid(s, cfg, spawned); Create(s, cfg, spawned).0
    case PostData(segment, body) => SendKeepsValid(s, segment, body); Send(s, segment, body).0
    case GetData(segment, response) => ReadKeepsValid(s, segment, response); Read(s, segment, response).0
    case PtyData(h, chunk) => EmitKeepsValid(s, h, chunk); Emit(s, h, chunk)
    case PtyExit(h) => ExitKeepsValid(s, h); Exit(s, h)
  }

  lemma CreateKeepsValid(s: State, cfg: Config, spawned: Option<nat>)
    requires Valid(s)
    ensures Valid(Create(s, cfg, spawned).0)
  {
  }

  lemma SendKeepsValid(s: State, segment: string, body: string)
    requires Valid(s)
    ensures Valid(Send(s, segment, body).0)
  {
  }

  lemma ExitKeepsValid(s: State, h: nat)
    requires Valid(s)
    ensures Valid(Exit(s, h))
  {
  }

  lemma ReadKeepsValid(s: State, segment: string, response: nat)
    requires Valid(s)
    ensures Valid(Read(s, segment, response).0)
  {
    var r := Read(s, segment, response).0;
    if Lookup(s, segment).Some? {
      var h := Lookup(s, segment).value;
      var t := r.handles[h];
      assert forall k :: 0 <= k < |t.listeners| - 1 ==> t.listeners[k] == s.handles[h].listeners[k];
    }
  }

  lemma EmitKeepsValid(s: State, h: nat, chunk: string)
    requires Valid(s)
    ensures Valid(Emit(s, h, chunk))
  {
    if h < |s.handles| {
      var t := s.handles[h];
      var u := Emit(s, h, chunk).handles[h];
      forall k | 0 <= k < |u.listeners|
        ensures u.listeners[k].attachedAt <= |u.output|
        ensures u.listeners[k].received == u.output[u.listeners[k].attachedAt..]
      {
        var a := t.listeners[k].attachedAt;
        assert u.output[a..] == t.output[a..] + [chunk];
      }
    }
  }

  function Run(s: State, cfg: Config, events: seq<Event>): (r: State)
    requires Valid(s)
    ensures Valid(r)
    ensures |r.handles| >= |s.handles|
    decreases |events|
  {
    if events == [] then s else Run(Step(s, cfg, events[0]), cfg, events[1..])
  }

  // ---------------------------------------------------------------- history

  /** `b` is a later state of the same terminal: same pid and options, it
      does not come back once dead, what was written and printed only grows,
      and every listener is still attached, to the same response, with what
      it had already sent still at the head of what it sends. */
  predicate HandleExtends(a: Pty, b: Pty) {
    && b.pid == a.pid && b.options == a.options
    && (b.alive ==> a.alive)
    && a.written <= b.written && a.output <= b.output
    && |a.listeners| <= |b.listeners|
    && forall k :: 0 <= k < |a.listeners| ==>
         && b.listeners[k].response == a.listeners[k].response
         && b.listeners[k].attachedAt == a.listeners[k].attachedAt
         && a.listeners[k].received <= b.listeners[k].received
  }

  predicate Extends(s: State, r: State) {
    && |s.handles| <= |r.handles|
    && forall h :: 0 <= h < |s.handles| ==> HandleExtends(s.handles[h], r.handles[h])
  }

  lemma HandleExtendsTrans(a: Pty, b: Pty, c: Pty)
    requires HandleExtends(a, b) && HandleExtends(b, c)
    ensures HandleExtends(a, c)
  {
    forall k | 0 <= k < |a.listeners|
      ensures a.listeners[k].received <= c.listeners[k].received
    {
      PrefixTrans(a.listeners[k].received, b.listeners[k].received, c.listeners[k].received);
    }
    PrefixTrans(a.written, b.written, c.written);
    PrefixTrans(a.output, b.output, c.output);
  }

  lemma PrefixTrans<T>(a: seq<T>, b: seq<T>, c: seq<T>)
    requires a <= b && b <= c
    ensures a <= c
  {
    assert c[..|a|] == b[..|a|];
  }

  /** No event takes back anything a response has been sent, forgets a write
      or detaches a listener. */
  lemma StepExtends(s: State, cfg: Config, e: Event)
    requires Valid(s)
    ensures Extends(s, Step(s, cfg, e))
  {
    match e
    case PostTerminals(spawned) =>
    case PostData(segment, body) => SendExtends(s, segment, body);
    case GetData(segment, response) => ReadExtends(s, segment, response);
    case PtyData(h, chunk) => EmitExtends(s, h, chunk);
    case PtyExit(h) =>
  }

  lemma SendExtends(s: State, segment: string, body: string)
    requires Valid(s)
    ensures Extends(s, Send(s, segment, body).0)
  {
  }

  lemma ReadExtends(s: State, segment: string, response: nat)
    requires Valid(s)
    ensures Extends(s, Read(s, segment, response).0)
  {
    var r := Read(s, segment, response).0;
    if Lookup(s, segment).Some? {
      var h := Lookup(s, segment).value;
      var a, b := s.handles[h], r.handles[h];
      assert forall k :: 0 <= k < |a.listeners| ==> b.listeners[k] == a.listeners[k];
    }
  }

  lemma EmitExtends(s: State, h: nat, chunk: string)
    ensures Extends(s, Emit(s, h, chunk))
  {
    var r := Emit(s, h, chunk);
    if h < |s.handles| {
      var a, b := s.handles[h], r.handles[h];
      forall k | 0 <= k < |a.listeners|
        ensures a.listeners[k].received <= b.listeners[k].received
      {
        assert b.listeners[k].received == a.listeners[k].received + [chunk];
      }
    }
  }

  lemma {:induction false} RunExtends(s: State, cfg: Config, events: seq<Event>)
    requires Valid(s)
    ensures Extends(s, Run(s, cfg, events))
    decreases |events|
  {
    if events != [] {
      var m := Step(s, cfg, events[0]);
      StepExtends(s, cfg, events[0]);
      RunExtends(m, cfg, events[1..]);
      var r := Run(m, cfg, events[1..]);
      assert r == Run(s, cfg, events);
      forall h | 0 <= h < |s.handles|
        ensures HandleExtends(s.handles[h], r.handles[h])
      {
        HandleExtendsTrans(s.handles[h], m.handles[h], r.handles[h]);
      }
    }
  }

  // ---------------------------------------------------------------- scenarios

  /** The pid returned by `POST /terminals` addresses the new terminal: a
      write to it reaches the new handle and no other. */
  lemma CreateThenSend(s: State, cfg: Config, pid: nat, body: string)
    requires Valid(s)
    ensures var c := Create(s, cfg, Some(pid)).0;
            && Valid(c)
            && Lookup(c, Decimal.Show(pid)) == Some(|s.handles|)
            && Send(c, Decimal.Show(pid), body).1 == Status(200)
            && Send(c, Decimal.Show(pid), body).0.handles[|s.handles|].written == [body]
  {
    var c := Create(s, cfg, Some(pid)).0;
    CreateKeepsValid(s, cfg, Some(pid));
    LookupShow(c, pid);
  }

  /** Once a terminal has exited, its pid answers 404 to both data routes. */
  lemma ExitedAnswers404(s: State, h: nat, body: string, response: nat)
    requires Valid(s) && h < |s.handles| && s.handles[h].alive
    ensures var e := Exit(s, h);
            var n := Decimal.Show(s.handles[h].pid);
            && Send(e, n, body) == (e, Status(404))
            && Read(e, n, response) == (e, Status(404))
  {
    UnregisteredIsNotFound(Exit(s, h), s.handles[h].pid);
  }

  lemma UnregisteredIsNotFound(s: State, p: nat)
    requires p !in s.terminals
    ensures Lookup(s, Decimal.Show(p)).None?
  {
    forall q | Decimal.Show(q) == Decimal.Show(p) ensures q == p {
      Decimal.ParseShow(p);
      Decimal.ParseIffShow(Decimal.Show(p), q);
    }
  }

  /** Events that do not spawn a process with pid `p` never register `p`:
      an unregistered pid stays unreachable. */
  lemma {:induction false} StaysGone(s: State, cfg: Config, events: seq<Event>, p: nat)
    requires Valid(s) && p !in s.terminals
    requires forall k :: 0 <= k < |events| ==> events[k] != PostTerminals(Some(p))
    ensures p !in Run(s, cfg, events).terminals
    decreases |events|
  {
    if events != [] {
      StepKeepsGone(s, cfg, events[0], p);
      StaysGone(Step(s, cfg, events[0]), cfg, events[1..], p);
    }
  }

  lemma StepKeepsGone(s: State, cfg: Config, e: Event, p: nat)
    requires Valid(s) && p !in s.terminals && e != PostTerminals(Some(p))
    ensures p !in Step(s, cfg, e).terminals
  {
  }

  /** The exit callback deletes by pid, not by handle: when the system has
      handed the pid of a terminal whose exit is still pending to a new
      terminal, that exit unregisters the new terminal, which keeps running
      with no route to it. */
  lemma StaleExitUnregistersSuccessor(s: State, cfg: Config, h: nat)
    requires Valid(s) && h < |s.handles| && s.handles[h].alive
    ensures var p := s.handles[h].pid;
            var c := Create(s, cfg, Some(p)).0;
            var e := Exit(c, h);
            && c.terminals[p] == |s.handles|
            && p !in e.terminals
            && e.handles[|s.handles|].alive
            && Lookup(e, Decimal.Show(p)).None?
  {
    var p := s.handles[h].pid;
    UnregisteredIsNotFound(Exit(Create(s, cfg, Some(p)).0, h), p);
  }

  /** The terminal printing `chunks` one event at a time. */
  function PrintAll(s: State, h: nat, chunks: seq<string>): (r: State)
    requires Valid(s)
    ensures Valid(r) && r.terminals == s.terminals && |r.handles| == |s.handles|
    decreases |chunks|
  {
    if chunks == [] then s
    else
      EmitKeepsValid(s, h, chunks[0]);
      PrintAll(Emit(s, h, chunks[0]), h, chunks[1..])
  }

  lemma {:induction false} PrintAllOutput(s: State, h: nat, chunks: seq<string>)
    requires Valid(s) && h < |s.handles|
    ensures PrintAll(s, h, chunks).handles[h].output == s.handles[h].output + chunks
    ensures |PrintAll(s, h, chunks).handles[h].listeners| == |s.handles[h].listeners|
    ensures forall k :: 0 <= k < |s.handles[h].listeners| ==>
              && PrintAll(s, h, chunks).handles[h].listeners[k].attachedAt
                 == s.handles[h].listeners[k].attachedAt
              && PrintAll(s, h, chunks).handles[h].listeners[k].response
                 == s.handles[h].listeners[k].response
    decreases |chunks|
  {
    if chunks != [] {
      EmitKeepsValid(s, h, chunks[0]);
      var m := Emit(s, h, chunks[0]);
      PrintAllOutput(m, h, chunks[1..]);
      assert s.handles[h].output + chunks == m.handles[h].output + chunks[1..];
    }
  }

  /** A read request receives exactly what the terminal prints after it is
      made, in order, and nothing printed before. */
  lemma ReadThenPrint(s: State, segment: string, response: nat, chunks: seq<string>)
    requires Valid(s) && Lookup(s, segment).Some?
    ensures var h := Lookup(s, segment).value;
            var r := Read(s, segment, response).0;
            var k := |s.handles[h].listeners|;
            var t := PrintAll(r, h, chunks).handles[h];
            && k < |t.listeners|
            && t.listeners[k].response == response
            && t.listeners[k].received == chunks
  {
    var h := Lookup(s, segment).value;
    var r := Read(s, segment, response).0;
    ReadKeepsValid(s, segment, response);
    PrintAllOutput(r, h, chunks);
    var k := |s.handles[h].listeners|;
    var t := PrintAll(r, h, chunks).handles[h];
    assert t.listeners[k].attachedAt == |s.handles[h].output|;
    assert t.output == s.handles[h].output + chunks;
    assert t.listeners[k].received == t.output[|s.handles[h].output|..];
  }

  // ---------------------------------------------------------------- as written

  /** `terminals[req.params.pid]` as the source reads it: a segment naming a
      property every object inherits is truthy, and the handler then calls
      `term.write` or `term.on`, which that value lacks; the handler throws
      and Express answers 500. */
  function SendAsWritten(s: State, segment: string, body: string): (r: (State, Reply))
    requires Valid(s)
    ensures r == if JsObject.IsInherited(segment) then (s, Status(500)) else Send(s, segment, body)
  {
    var found := Lookup(s, segment);
    InheritedIsNoPid(s, segment);
    var p: JsObject.Property<nat> := JsObject.Get(found, segment);
    if p.Own? || p.Undefined? then Send(s, segment, body)
    else (s, Status(500))
  }

  function ReadAsWritten(s: State, segment: string, response: nat): (r: (State, Reply))
    requires Valid(s)
    ensures r == if JsObject.IsInherited(segment) then (s, Status(500)) else Read(s, segment, response)
  {
    var found := Lookup(s, segment);
    InheritedIsNoPid(s, segment);
    var p: JsObject.Property<nat> := JsObject.Get(found, segment);
    if p.Own? || p.Undefined? then Read(s, segment, response)
    else (s, Status(500))
  }

  /** No inherited property name is a pid numeral. */
  lemma InheritedIsNoPid(s: State, segment: string)
    ensures JsObject.IsInherited(segment) ==> Lookup(s, segment).None?
  {
    if JsObject.IsInherited(segment) {
      assert !Decimal.IsDigit(segment[0]);
    }
  }

  /** `/terminals/constructor/data` answers 500 on both routes where an
      unknown pid answers 404. */
  lemma InheritedPidAnswers500(s: State, body: string, response: nat)
    requires Valid(s)
    ensures SendAsWritten(s, "constructor", body).1 == Status(500)
    ensures ReadAsWritten(s, "__proto__", response).1 == Status(500)
    ensures Send(s, "constructor", body).1 == Status(404)
    ensures Read(s, "__proto__", response).1 == Status(404)
  {
    InheritedIsNoPid(s, "constructor");
    InheritedIsNoPid(s, "__proto__");
  }
}

=== FILE: signup.dfy ===
/** The sign-up form's submit handler (script.js): five independent field
    checks, each reporting on its own field, and success only when all pass. */
module Signup {
  import opened Text

  datatype Form = Form(
    fullName: string,
    email: string,
    password: string,
    confirmPassword: string,
    termsAccepted: bool)

  datatype Field = FullName | Email | Password | ConfirmPassword | Terms

  datatype FieldError = FieldError(field: Field, message: string)

  /** The order the handler checks the fields in. */
  function Rank(f: Field): nat {
    match f
    case FullName => 0
    case Email => 1
    case Password => 2
    case ConfirmPassword => 3
    case Terms => 4
  }

  function Message(f: Field): string {
    match f
    case FullName => "Please enter your full name"
    case Email => "Please enter a valid email address"
    case Password => "Password must be at least 8 characters"
    case ConfirmPassword => "Passwords do not match"
    case Terms => "You must accept the terms and conditions"
  }

  // ---------------------------------------------------------------- email

  /** A character of the class `[^\s@]`. */
  predicate IsAtom(c: char) {
    !IsWhitespace(c) && c != '@'
  }

  predicate AllAtoms(s: string) {
    forall k :: 0 <= k < |s| ==> IsAtom(s[k])
  }

  /** `s` matches `^[^\s@]+@[^\s@]+\.[^\s@]+$` (no multiline flag, so `$` is
      the end of the string): some `@` and some later `.` cut `s` into three
      non-empty runs of `[^\s@]`. */
  ghost predicate MatchesEmailPattern(s: string) {
    exists at, dot ::
      && 0 < at && at + 1 < dot && dot + 1 < |s|
      && s[at] == '@' && s[dot] == '.'
      && AllAtoms(s[..at]) && AllAtoms(s[at + 1..dot]) && AllAtoms(s[dot + 1..])
  }

  /** `isValidEmail` as a direct check: no whitespace, exactly one `@` with
      something before it, and a `.` in the domain that is neither its first
      nor its last character. */
  predicate IsValidEmail(s: string) {
    var at := IndexOf(s, '@');
    && 0 < at < |s|
    && AllAtoms(s[..at])
    && var domain := s[at + 1..];
       && AllAtoms(domain)
       && |domain| >= 3
       && '.' in domain[1..|domain| - 1]
  }

  /** The direct check accepts exactly the strings the regular expression
      matches. */
  lemma EmailCheckIsPattern(s: string)
    ensures IsValidEmail(s) <==> MatchesEmailPattern(s)
  {
    if IsValidEmail(s) {
      CheckedEmailMatches(s);
    }
    if MatchesEmailPattern(s) {
      var at, dot :|
        && 0 < at && at + 1 < dot && dot + 1 < |s|
        && s[at] == '@' && s[dot] == '.'
        && AllAtoms(s[..at]) && AllAtoms(s[at + 1..dot]) && AllAtoms(s[dot + 1..]);
      MatchingEmailChecks(s, at, dot);
    }
  }

  lemma CheckedEmailMatches(s: string)
    requires IsValidEmail(s)
    ensures MatchesEmailPattern(s)
  {
    var at := IndexOf(s, '@');
    var domain := s[at + 1..];
    var inner := domain[1..|domain| - 1];
    var k :| 0 <= k < |inner| && inner[k] == '.';
    var dot := at + 2 + k;
    assert s[dot] == '.';
    assert s[at + 1..dot] == domain[..k + 1];
    assert s[dot + 1..] == domain[k + 2..];
    assert AllAtoms(s[at + 1..dot]) && AllAtoms(s[dot + 1..]);
  }

  lemma MatchingEmailChecks(s: string, at: nat, dot: nat)
    requires 0 < at && at + 1 < dot && dot + 1 < |s|
    requires s[at] == '@' && s[dot] == '.'
    requires AllAtoms(s[..at]) && AllAtoms(s[at + 1..dot]) && AllAtoms(s[dot + 1..])
    ensures IsValidEmail(s)
  {
    assert '@' !in s[..at] by {
      assert forall k :: 0 <= k < at ==> s[..at][k] != '@';
    }
    IndexOfFirst(s, '@', at);
    var domain := s[at + 1..];
    assert domain == s[at + 1..dot] + [s[dot]] + s[dot + 1..];
    assert AllAtoms(domain);
    assert domain[1..|domain| - 1][dot - at - 2] == '.';
  }

  /** An email address needs at least five characters (`a@b.c`); in
      particular the empty field is rejected. */
  lemma EmailNeedsFiveCharacters(s: string)
    requires IsValidEmail(s)
    ensures |s| >= 5 && '@' in s && '.' in s
  {
    var at := IndexOf(s, '@');
    var domain := s[at + 1..];
    var k :| 0 <= k < |domain[1..|domain| - 1]| && domain[1..|domain| - 1][k] == '.';
    assert s[at + 2 + k] == '.';
  }

  // ---------------------------------------------------------------- submit

  /** Whether `field` passes its check. The name is measured after trimming,
      the password as typed; lengths are JavaScript lengths (UTF-16 code
      units). */
  predicate Passes(form: Form, field: Field) {
    match field
    case FullName => Utf16Length(Trim(form.fullName)) >= 2
    case Email => IsValidEmail(form.email)
    case Password => Utf16Length(form.password) >= 8
    case ConfirmPassword => form.password == form.confirmPassword
    case Terms => form.termsAccepted
  }

  /** The fields among `fields` whose check fails, in that order, where
      `passes` says which checks succeed; each check runs whatever the others
      found. */
  function Failing(passes: Field -> bool, fields: seq<Field>): (r: seq<Field>)
    ensures forall f :: f in r <==> f in fields && !passes(f)
    ensures Increasing(fields) ==> Increasing(r)
  {
    if fields == [] then []
    else
      var rest := Failing(passes, fields[1..]);
      assert forall f :: f in fields <==> f == fields[0] || f in fields[1..];
      assert Increasing(fields) ==> forall f :: f in rest ==> Rank(fields[0]) < Rank(f) by {
        if Increasing(fields) {
          forall f | f in rest ensures Rank(fields[0]) < Rank(f) {
            var j :| 0 <= j < |fields[1..]| && fields[1..][j] == f;
            assert fields[j + 1] == f;
          }
        }
      }
      if passes(fields[0]) then rest
      else
        IncreasingCons(fields[0], rest);
        [fields[0]] + rest
  }

  /** A field ranked before every field of an increasing list can lead it. */
  lemma IncreasingCons(f: Field, rest: seq<Field>)
    ensures Increasing(rest) && (forall g :: g in rest ==> Rank(f) < Rank(g))
            ==> Increasing([f] + rest)
  {
    if Increasing(rest) && forall g :: g in rest ==> Rank(f) < Rank(g) {
      var r := [f] + rest;
      forall i, j | 0 <= i < j < |r|
        ensures Rank(r[i]) < Rank(r[j])
      {
        assert r[j] == rest[j - 1];
        if i > 0 {
          assert r[i] == rest[i - 1];
        }
      }
    }
  }

  /** Strictly increasing in check order. */
  predicate Increasing(fields: seq<Field>) {
    forall i, j :: 0 <= i < j < |fields| ==> Rank(fields[i]) < Rank(fields[j])
  }

  const FieldOrder: seq<Field> := [FullName, Email, Password, ConfirmPassword, Terms]

  lemma EveryFieldIsChecked()
    ensures forall f: Field :: f in FieldOrder
    ensures Increasing(FieldOrder)
  {
    forall f: Field ensures f in FieldOrder {
      assert FieldOrder[Rank(f)] == f;
    }
  }

  function FieldsOf(errors: seq<FieldError>): seq<Field> {
    seq(|errors|, k requires 0 <= k < |errors| => errors[k].field)
  }

  /** The errors the submit handler shows, in the order it checks the fields:
      every failing check, and only those, reports its message on its own
      field. */
  function Validate(form: Form): (errors: seq<FieldError>)
    ensures forall f :: f in FieldsOf(errors) <==> !Passes(form, f)
    ensures Increasing(FieldsOf(errors))
    ensures forall k :: 0 <= k < |errors| ==> errors[k].message == Message(errors[k].field)
  {
    EveryFieldIsChecked();
    var passes := f => Passes(form, f);
    var failing := Failing(passes, FieldOrder);
    assert forall f :: f in failing <==> !Passes(form, f) by {
      assert forall f :: passes(f) == Passes(form, f);
    }
    Report(failing)
  }

  /** Each failing field's own message, on that field, in the same order. */
  function Report(failing: seq<Field>): (errors: seq<FieldError>)
    ensures FieldsOf(errors) == failing
    ensures forall k :: 0 <= k < |errors| ==> errors[k].message == Message(errors[k].field)
  {
    var errors := seq(|failing|, k requires 0 <= k < |failing| => FieldError(failing[k], Message(failing[k])));
    assert FieldsOf(errors) == failing;
    errors
  }

  /** The success message is shown exactly when the trimmed name has at least
      two units, the email is valid, the password has at least eight, the
      confirmation equals it and the terms are accepted. */
  lemma AcceptedIffAllChecksPass(form: Form)
    ensures Validate(form) == [] <==>
              && Utf16Length(Trim(form.fullName)) >= 2
              && IsValidEmail(form.email)
              && Utf16Length(form.password) >= 8
              && form.password == form.confirmPassword
              && form.termsAccepted
  {
    var errors := Validate(form);
    if errors != [] {
      assert !Passes(form, FieldsOf(errors)[0]);
    } else {
      assert Passes(form, FullName) && Passes(form, Email) && Passes(form, Password);
      assert Passes(form, ConfirmPassword) && Passes(form, Terms);
    }
  }

  /** The source also tests each text field for emptiness (`!fullName`,
      `!email`, `!password`); an empty field already fails its check. */
  lemma EmptyFieldsFail(form: Form)
    ensures form.fullName == [] ==> !Passes(form, FullName)
    ensures form.email == [] ==> !Passes(form, Email)
    ensures form.password == [] ==> !Passes(form, Password)
  {
  }

  /** The page shows the success message exactly when no error was shown,
      that is, when every one of the five checks passes. */
  function ShowsSuccess(form: Form): (shown: bool)
    ensures shown <==> forall f: Field :: Passes(form, f)
  {
    var errors := Validate(form);
    if errors != [] then
      assert !Passes(form, FieldsOf(errors)[0]);
      false
    else
      assert forall f: Field :: f !in FieldsOf(errors);
      true
  }

  /** Mismatched passwords are reported and block success even when both are
      long enough. */
  lemma MismatchAloneBlocks(form: Form)
    requires form.password != form.confirmPassword
    ensures !ShowsSuccess(form)
    ensures FieldError(ConfirmPassword, Message(ConfirmPassword)) in Validate(form)
  {
    var errors := Validate(form);
    assert !Passes(form, ConfirmPassword);
    var k :| 0 <= k < |errors| && FieldsOf(errors)[k] == ConfirmPassword;
    assert errors[k] == FieldError(ConfirmPassword, Message(ConfirmPassword));
  }

  /** The name is trimmed before it is measured: one letter padded with
      spaces is refused. */
  lemma PaddedNameIsRefused()
    ensures !Passes(Form("  a  ", "", "", "", false), FullName)
  {
    assert "  a  " == "  " + "a" + "  ";
    TrimPadded("  ", "a", "  ");
  }

  /** The password is measured as typed: eight spaces are long enough. */
  lemma BlankPasswordIsLongEnough()
    ensures Passes(Form("", "", "        ", "", false), Password)
  {
  }

  /** Lengths count UTF-16 code units: four emoji make an eight-unit
      password. */
  lemma PasswordLengthCountsCodeUnits()
    ensures Passes(Form("", "", "\U{1F600}\U{1F600}\U{1F600}\U{1F600}", "", false), Password)
  {
  }
}

=== FILE: terminal.dfy ===
/** The fake shell's key handling (terminal.js, `handleInput` and
    `autocomplete`): a state machine over the command history, the history
    cursor and the input field. The screen itself is not modelled; each key
    press reports what it asked the page to show as an `Effect`. */
module Terminal {
  import opened Text
  import opened Commands

  datatype Term = Term(history: seq<string>, historyIndex: int, input: string)

  /** The state the constructor sets up: no history, cursor before it. */
  const Initial: Term := Term([], -1, [])

  /** The cursor is at most one step outside the history on either side. */
  predicate InRange(t: Term) {
    -1 <= t.historyIndex <= |t.history|
  }

  /** What every reachable state satisfies: the cursor is in range, it is
      only ever -1 before anything was entered, and every history entry is a
      non-blank trimmed command line. */
  predicate Valid(t: Term) {
    && InRange(t)
    && (t.historyIndex == -1 ==> t.history == [])
    && forall k :: 0 <= k < |t.history| ==> t.history[k] != [] && Trimmed(t.history[k])
  }

  lemma InitialIsValid()
    ensures Valid(Initial)
  {
  }

  datatype Key = Enter | ArrowUp | ArrowDown | Tab | OtherKey

  /** What a key press asks the page to show. */
  datatype Effect =
    | NoEffect
    | EmptyPrompt                                          // an empty command line echoed
    | Executed(line: string)                               // `executeCommand(line)`
    | ShowCompletions(typed: string, matches: seq<string>) // the candidates, inline

  /** Enter: a non-blank trimmed line is recorded, the cursor moves past the
      end of the history and the line is executed (its outcome is
      `Commands.Execute(line, now)`, the own-property dispatch); a blank line
      only echoes an empty prompt. Either way the input is cleared, since
      `Execute` never throws. `PressEnterAsWritten` is the same key over the
      dispatch as written. */
  function PressEnter(t: Term): (r: (Term, Effect))
    ensures r.0.input == []
    ensures Trim(t.input) != [] ==>
              && r.0.history == t.history + [Trim(t.input)]
              && r.0.historyIndex == |r.0.history|
              && r.1 == Executed(Trim(t.input))
    ensures Trim(t.input) == [] ==>
              r.0 == t.(input := []) && r.1 == EmptyPrompt
  {
    var command := Trim(t.input);
    if command != [] then
      var history := t.history + [command];
      (Term(history, |history|, []), Executed(command))
    else
      (t.(input := []), EmptyPrompt)
  }

  /** Enter as written, where `executeCommand` reads the command table with a
      plain bracket read (`Commands.ExecuteAsWritten`). The line is pushed
      onto the history before it runs and the input is cleared after, so a
      line whose command throws is recorded but stays in the input field. */
  function PressEnterAsWritten(t: Term, now: string): (r: (Term, Effect))
    ensures Trim(t.input) != [] ==>
              && r.0.history == t.history + [Trim(t.input)]
              && r.0.historyIndex == |r.0.history|
              && r.1 == Executed(Trim(t.input))
    ensures r.0.input == []
            <==> Trim(t.input) == [] || !ExecuteAsWritten(Trim(t.input), now).ThrewTypeError?
    ensures r.0.input != [] ==> r.0.input == t.input
    ensures Trim(t.input) == [] || !ExecuteAsWritten(Trim(t.input), now).ThrewTypeError?
            ==> r == PressEnter(t)
  {
    var command := Trim(t.input);
    if command != [] && ExecuteAsWritten(command, now).ThrewTypeError? then
      var history := t.history + [command];
      (Term(history, |history|, t.input), Executed(command))
    else PressEnter(t)
  }

  /** `__proto__` followed by Enter is recorded in the history but stays in
      the input field, where the own-property dispatch clears it. */
  lemma ProtoStaysInInput(t: Term, now: string)
    requires t.input == "__proto__"
    ensures PressEnterAsWritten(t, now).0.input == "__proto__"
    ensures PressEnterAsWritten(t, now).0.history == t.history + ["__proto__"]
    ensures PressEnter(t).0.input == []
  {
    assert Trimmed(t.input) by {
      assert t.input[0] == '_' && t.input[|t.input| - 1] == '_';
    }
    TrimFixedPoint(t.input);
    ProtoLine(now);
  }

  /** ArrowUp: step back one entry and show it, unless already at the first
      entry (or before any). */
  function PressUp(t: Term): (r: Term)
    requires InRange(t)
    ensures InRange(r) && r.history == t.history
    ensures t.historyIndex >= 0 ==> r.historyIndex >= 0
    ensures t.historyIndex > 0 ==>
              r.historyIndex == t.historyIndex - 1 && r.input == t.history[r.historyIndex]
    ensures t.historyIndex <= 0 ==> r == t
  {
    if t.historyIndex > 0 then
      var i := t.historyIndex - 1;
      Term(t.history, i, t.history[i])
    else t
  }

  /** ArrowDown: step forward one entry and show it; from the last entry or
      beyond, move past the end and clear the input. */
  function PressDown(t: Term): (r: Term)
    requires InRange(t)
    ensures InRange(r) && r.history == t.history && r.historyIndex >= 0
    ensures t.historyIndex < |t.history| - 1 ==>
              r.historyIndex == t.historyIndex + 1 && r.input == t.history[r.historyIndex]
    ensures t.historyIndex >= |t.history| - 1 ==>
              r.historyIndex == |t.history| && r.input == []
  {
    if t.historyIndex < |t.history| - 1 then
      var i := t.historyIndex + 1;
      Term(t.history, i, t.history[i])
    else Term(t.history, |t.history|, [])
  }

  /** The elements of `names` that start with `typed`, in the order of
      `names`. */
  function Filter(names: seq<string>, typed: string): (r: seq<string>)
    ensures forall n :: n in r <==> n in names && typed <= n
    ensures IsSubsequence(r, names)
    ensures |r| <= |names|
    ensures Distinct(names) ==> Distinct(r)
  {
    if names == [] then []
    else
      var rest := Filter(names[1..], typed);
      assert forall n :: n in names <==> n == names[0] || n in names[1..];
      assert Distinct(names) ==> Distinct(names[1..]) && names[0] !in rest;
      if typed <= names[0] then
        assert ([names[0]] + rest)[1..] == rest;
        [names[0]] + rest
      else
        assert rest != [] ==> rest[0] in rest && rest[0] != names[0];
        rest
  }

  /** `a` is `b` with some elements dropped: the elements of `a` occur in
      `b` in the same order. */
  predicate IsSubsequence(a: seq<string>, b: seq<string>)
    decreases |b|
  {
    if a == [] then true
    else if b == [] then false
    else if a[0] == b[0] then IsSubsequence(a[1..], b[1..])
    else IsSubsequence(a, b[1..])
  }

  predicate Distinct(s: seq<string>) {
    forall i, j :: 0 <= i < j < |s| ==> s[i] != s[j]
  }

  /** The command names having `typed` as a (case-sensitive) prefix. */
  function Matches(typed: string): (r: seq<string>)
    ensures forall n :: n in r <==> n in CommandNames && typed <= n
    ensures IsSubsequence(r, CommandNames)
    ensures Distinct(r)
  {
    CommandNamesAreDistinct();
    Filter(CommandNames, typed)
  }

  lemma CommandNamesAreDistinct()
    ensures Distinct(CommandNames)
  {
  }

  /** Tab: a single candidate replaces the input; several are shown and the
      input is kept; none changes nothing. */
  function Autocomplete(t: Term): (r: (Term, Effect))
    ensures r.0.history == t.history && r.0.historyIndex == t.historyIndex
    ensures |Matches(t.input)| == 1 ==>
              r.0.input in CommandNames && t.input <= r.0.input && r.1 == NoEffect
    ensures |Matches(t.input)| > 1 ==>
              r.0 == t && r.1 == ShowCompletions(t.input, Matches(t.input))
    ensures Matches(t.input) == [] ==> r == (t, NoEffect)
  {
    var m := Matches(t.input);
    if |m| == 1 then (t.(input := m[0]), NoEffect)
    else if |m| > 1 then (t, ShowCompletions(t.input, m))
    else (t, NoEffect)
  }

  /** `handleInput(e)`. */
  function HandleKey(t: Term, k: Key): (r: (Term, Effect))
    requires InRange(t)
    ensures InRange(r.0)
    ensures Valid(t) ==> Valid(r.0)
  {
    match k
    case Enter =>
      EnterKeepsValid(t);
      PressEnter(t)
    case ArrowUp => (PressUp(t), NoEffect)
    case ArrowDown => (PressDown(t), NoEffect)
    case Tab => Autocomplete(t)
    case OtherKey => (t, NoEffect)
  }

  lemma EnterKeepsValid(t: Term)
    ensures InRange(t) ==> InRange(PressEnter(t).0)
    ensures Valid(t) ==> Valid(PressEnter(t).0)
  {
    var r := PressEnter(t).0;
    var line := Trim(t.input);
    TrimIsTrimmed(t.input);
    if line != [] {
      assert r.history == t.history + [line];
      assert forall k :: 0 <= k < |r.history| ==>
        r.history[k] == (if k < |t.history| then t.history[k] else line);
    }
  }

  // ---------------------------------------------------------------- runs

  /** A key press handled by `handleInput`, or the browser editing the input
      field (typing, pasting), which `handleInput` does not see. */
  datatype Event = Press(key: Key) | Typed(value: string)

  function Step(t: Term, e: Event): (r: Term)
    requires InRange(t)
    ensures InRange(r)
    ensures Valid(t) ==> Valid(r)
  {
    match e
    case Press(k) => HandleKey(t, k).0
    case Typed(v) => t.(input := v)
  }

  /** The state after a sequence of events. */
  function Run(t: Term, events: seq<Event>): (r: Term)
    requires InRange(t)
    ensures InRange(r)
    ensures |r.history| >= |t.history|
    decreases |events|
  {
    if events == [] then t else Run(Step(t, events[0]), events[1..])
  }

  /** Every state reachable from the constructor's keeps the cursor in
      `-1 .. |history|` and records only non-blank trimmed lines. */
  lemma {:induction false} RunKeepsValid(t: Term, events: seq<Event>)
    requires Valid(t)
    ensures Valid(Run(t, events))
    decreases |events|
  {
    if events != [] {
      RunKeepsValid(Step(t, events[0]), events[1..]);
    }
  }

  lemma ReachableIsValid(events: seq<Event>)
    ensures Valid(Run(Initial, events))
  {
    RunKeepsValid(Initial, events);
  }

  function Repeat(e: Event, n: nat): (r: seq<Event>)
    ensures |r| == n && forall k :: 0 <= k < n ==> r[k] == e
  {
    if n == 0 then [] else [e] + Repeat(e, n - 1)
  }

  /** Pressing ArrowUp `n` times walks back through the history one entry at
      a time, newest first, showing each entry. */
  lemma {:induction false} UpWalksBack(t: Term, n: nat)
    requires InRange(t) && 1 <= n <= t.historyIndex
    ensures Run(t, Repeat(Press(ArrowUp), n))
            == Term(t.history, t.historyIndex - n, t.history[t.historyIndex - n])
    decreases n
  {
    var u := Step(t, Press(ArrowUp));
    assert Repeat(Press(ArrowUp), n)[1..] == Repeat(Press(ArrowUp), n - 1);
    if n > 1 {
      UpWalksBack(u, n - 1);
    }
  }

  /** Right after a line is entered, ArrowUp brings back exactly that line. */
  lemma EnterThenUpRecalls(t: Term)
    requires Trim(t.input) != []
    ensures PressUp(PressEnter(t).0).input == Trim(t.input)
  {
  }

  /** ArrowDown undoes ArrowUp whenever the input shows what the cursor points
      at (the entry, or nothing past the end). */
  lemma UpThenDownRestores(t: Term)
    requires InRange(t) && 0 < t.historyIndex
    requires t.input == (if t.historyIndex < |t.history| then t.history[t.historyIndex] else [])
    ensures PressDown(PressUp(t)) == t
  {
  }

  /** No command name is a proper prefix of another. */
  lemma NamesArePrefixFree(x: string, y: string)
    requires x in CommandNames && y in CommandNames && x <= y
    ensures x == y
  {
    assert |x| >= 2 && y[0] == x[0] && y[1] == x[1];
  }

  lemma DistinctAllSame(s: seq<string>, n: string)
    requires Distinct(s) && n in s
    requires forall x :: x in s ==> x == n
    ensures s == [n]
  {
    var last := |s| - 1;
    assert s[0] in s && s[last] in s;
    assert s[0] == s[last];
    assert last == 0;
  }

  /** Completing a command name completes to itself, so a second Tab changes
      nothing that the first did not. */
  lemma {:induction false} TabIsIdempotent(t: Term)
    ensures Autocomplete(Autocomplete(t).0).0 == Autocomplete(t).0
  {
    var m := Matches(t.input);
    if |m| == 1 {
      var n := m[0];
      assert n in m;
      forall x | x in Matches(n)
        ensures x == n
      {
        NamesArePrefixFree(n, x);
      }
      DistinctAllSame(Matches(n), n);
    }
  }
}

=== FILE: text.dfy ===
/** The JavaScript string primitives the three programs rely on, over strings
    of Unicode scalar values: `trim`, the regular-expression class `\s`,
    `toLowerCase`, `length` (UTF-16 code units), `startsWith`, and
    `split`/`join` on a single separator character. */
module Text {

  /** ECMAScript WhiteSpace or LineTerminator: the characters `trim` strips and
      `\s` matches (tab, line feed, vertical tab, form feed, carriage return,
      every space separator, line and paragraph separators, and the byte order
      mark), listed by code point. */
  const WhitespaceChars: set<char> := {
    '\U{9}', '\U{A}', '\U{B}', '\U{C}', '\U{D}', ' ', '\U{A0}', '\U{1680}',
    '\U{2000}', '\U{2001}', '\U{2002}', '\U{2003}', '\U{2004}', '\U{2005}',
    '\U{2006}', '\U{2007}', '\U{2008}', '\U{2009}', '\U{200A}',
    '\U{2028}', '\U{2029}', '\U{202F}', '\U{205F}', '\U{3000}', '\U{FEFF}'
  }

  predicate IsWhitespace(c: char) {
    c in WhitespaceChars
  }

  predicate AllWhitespace(s: string) {
    forall k :: 0 <= k < |s| ==> IsWhitespace(s[k])
  }

  /** Leading whitespace removed (`TrimStartSpec` states what is removed). */
  function TrimStart(s: string): string {
    if |s| > 0 && IsWhitespace(s[0]) then TrimStart(s[1..]) else s
  }

  /** Trailing whitespace removed (`TrimEndSpec` states what is removed). */
  function TrimEnd(s: string): string {
    if |s| > 0 && IsWhitespace(s[|s| - 1]) then TrimEnd(s[..|s| - 1]) else s
  }

  /** `TrimStart` keeps a suffix, drops only whitespace, and stops at the first
      character that is not whitespace. */
  lemma {:induction false} TrimStartSpec(s: string)
    ensures var r := TrimStart(s);
            && |r| <= |s| && r == s[|s| - |r|..]
            && AllWhitespace(s[..|s| - |r|])
            && (r == [] || !IsWhitespace(r[0]))
    decreases |s|
  {
    if |s| > 0 && IsWhitespace(s[0]) {
      TrimStartSpec(s[1..]);
      var r := TrimStart(s);
      assert s[..|s| - |r|] == [s[0]] + s[1..][..|s| - 1 - |r|];
    }
  }

  /** `TrimEnd` keeps a prefix, drops only whitespace, and stops at the last
      character that is not whitespace. */
  lemma {:induction false} TrimEndSpec(s: string)
    ensures var r := TrimEnd(s);
            && |r| <= |s| && r == s[..|r|]
            && AllWhitespace(s[|r|..])
            && (r == [] || !IsWhitespace(r[|r| - 1]))
    decreases |s|
  {
    if |s| > 0 && IsWhitespace(s[|s| - 1]) {
      TrimEndSpec(s[..|s| - 1]);
      var r := TrimEnd(s);
      assert s[|r|..] == s[..|s| - 1][|r|..] + [s[|s| - 1]];
    }
  }

  /** Neither end is whitespace. */
  predicate Trimmed(s: string) {
    s == [] || (!IsWhitespace(s[0]) && !IsWhitespace(s[|s| - 1]))
  }

  /** `r` is `s` less a whitespace prefix and a whitespace suffix, and neither
      end of `r` is whitespace: the characterisation of `String.prototype.trim`. */
  ghost predicate IsTrimOf(r: string, s: string) {
    && Trimmed(r)
    && exists i :: 0 <= i <= |s| - |r| && s[i..i + |r|] == r
                   && AllWhitespace(s[..i]) && AllWhitespace(s[i + |r|..])
  }

  /** JavaScript `s.trim()`. What it computes is stated by `TrimIsTrimOf`,
      `TrimEmptyIffBlank` and `TrimIsTrimmed`, kept apart from the function so
      that callers pay for them only where they use them. */
  function Trim(s: string): string {
    TrimEnd(TrimStart(s))
  }

  lemma TrimIsTrimmed(s: string)
    ensures Trimmed(Trim(s))
  {
    TrimStartSpec(s);
    TrimEndSpec(TrimStart(s));
    TrimWitness(s, TrimStart(s), Trim(s));
  }

  /** `Trim(s)` is `s` less its leading and trailing whitespace. */
  lemma TrimIsTrimOf(s: string)
    ensures IsTrimOf(Trim(s), s)
  {
    TrimStartSpec(s);
    TrimEndSpec(TrimStart(s));
    TrimWitness(s, TrimStart(s), Trim(s));
  }

  /** The two halves of trimming, stated on their results alone. */
  lemma TrimWitness(s: string, a: string, r: string)
    requires |a| <= |s| && a == s[|s| - |a|..] && AllWhitespace(s[..|s| - |a|])
    requires a == [] || !IsWhitespace(a[0])
    requires |r| <= |a| && r == a[..|r|] && AllWhitespace(a[|r|..])
    requires r == [] || !IsWhitespace(r[|r| - 1])
    ensures Trimmed(r) && IsTrimOf(r, s)
  {
    if r != [] {
      assert r[0] == a[0];
    }
    var i := |s| - |a|;
    assert s[i..] == a;
    assert s[i..i + |r|] == a[..|r|] == r;
    assert s[i + |r|..] == a[|r|..];
    assert 0 <= i <= |s| - |r| && s[i..i + |r|] == r
           && AllWhitespace(s[..i]) && AllWhitespace(s[i + |r|..]);
  }

  /** Trimming leaves nothing exactly when the string is all whitespace. */
  lemma TrimEmptyIffBlank(s: string)
    ensures Trim(s) == [] <==> AllWhitespace(s)
  {
    var a := TrimStart(s);
    var r := TrimEnd(a);
    TrimStartSpec(s);
    TrimEndSpec(a);
    TrimEmptyOnlyIfBlank(s, a, r);
    if r != [] {
      assert s[|s| - |a|] == a[0] == r[0];
    }
  }

  lemma TrimEmptyOnlyIfBlank(s: string, a: string, r: string)
    requires |a| <= |s| && a == s[|s| - |a|..] && AllWhitespace(s[..|s| - |a|])
    requires |r| <= |a| && r == a[..|r|] && AllWhitespace(a[|r|..])
    ensures r == [] ==> AllWhitespace(s)
  {
    if r == [] {
      forall k | 0 <= k < |s|
        ensures IsWhitespace(s[k])
      {
        var i := |s| - |a|;
        if k < i {
          assert s[..i][k] == s[k];
        } else {
          assert a[k - i] == s[k];
          assert a[|r|..][k - i] == a[k - i];
        }
      }
    }
  }

  /** Trimming changes nothing exactly when neither end is whitespace; in
      particular trimming twice is trimming once. */
  lemma TrimFixedPoint(s: string)
    ensures Trim(s) == s <==> Trimmed(s)
    ensures Trim(Trim(s)) == Trim(s)
  {
    TrimIsTrimmed(s);
  }

  /** Trimming strips exactly the whitespace padding around a trimmed core. */
  lemma TrimPadded(a: string, core: string, b: string)
    requires AllWhitespace(a) && AllWhitespace(b) && Trimmed(core)
    ensures Trim(a + core + b) == core
  {
    if core == [] {
      assert AllWhitespace(a + core + b);
      TrimEmptyIffBlank(a + core + b);
    } else {
      TrimStartSkips(a, core + b);
      assert a + core + b == a + (core + b);
      TrimEndSkips(core, b);
    }
  }

  lemma {:induction false} TrimStartSkips(a: string, rest: string)
    requires AllWhitespace(a) && rest != [] && !IsWhitespace(rest[0])
    ensures TrimStart(a + rest) == rest
    decreases |a|
  {
    if a != [] {
      assert (a + rest)[1..] == a[1..] + rest;
      TrimStartSkips(a[1..], rest);
    }
  }

  lemma {:induction false} TrimEndSkips(core: string, b: string)
    requires AllWhitespace(b) && core != [] && !IsWhitespace(core[|core| - 1])
    ensures TrimEnd(core + b) == core
    decreases |b|
  {
    if b != [] {
      assert (core + b)[..|core + b| - 1] == core + b[..|b| - 1];
      TrimEndSkips(core, b[..|b| - 1]);
    }
  }

  /** A character outside the Basic Multilingual Plane, which UTF-16 writes
      as a surrogate pair. */
  predicate IsAstral(c: char) {
    c as int >= 0x1_0000
  }

  /** JavaScript `s.length`: the number of UTF-16 code units, so a character
      outside the Basic Multilingual Plane counts twice. */
  function Utf16Length(s: string): (n: nat)
    ensures |s| <= n <= 2 * |s|
    ensures n == |s| <==> forall k :: 0 <= k < |s| ==> !IsAstral(s[k])
    ensures n == 2 * |s| <==> forall k :: 0 <= k < |s| ==> IsAstral(s[k])
  {
    if s == [] then 0
    else (if IsAstral(s[0]) then 2 else 1) + Utf16Length(s[1..])
  }

  /** The code units of one character: one in the Basic Multilingual Plane,
      two outside it. */
  lemma Utf16LengthOfChar(c: char)
    ensures Utf16Length([c]) == if IsAstral(c) then 2 else 1
  {
    assert [c][1..] == [];
  }

  /** Lengths add up over concatenation; with `Utf16LengthOfChar` this pins
      the count down to one unit per character plus one per astral
      character. */
  lemma {:induction false} Utf16LengthAppend(a: string, b: string)
    ensures Utf16Length(a + b) == Utf16Length(a) + Utf16Length(b)
    decreases |a|
  {
    if a != [] {
      assert (a + b)[0] == a[0];
      assert (a + b)[1..] == a[1..] + b;
      Utf16LengthAppend(a[1..], b);
    } else {
      assert a + b == b;
    }
  }

  /** The number of astral characters in `s`. */
  function AstralCount(s: string): (n: nat)
    ensures n <= |s|
  {
    if s == [] then 0 else (if IsAstral(s[0]) then 1 else 0) + AstralCount(s[1..])
  }

  /** `length` is the character count plus one per astral character. */
  lemma {:induction false} Utf16LengthCountsAstral(s: string)
    ensures Utf16Length(s) == |s| + AstralCount(s)
    decreases |s|
  {
    if s != [] {
      Utf16LengthCountsAstral(s[1..]);
    }
  }

  predicate IsUpperAscii(c: char) {
    'A' <= c <= 'Z'
  }

  function LowerChar(c: char): char {
    if IsUpperAscii(c) then (c as int + 32) as char else c
  }

  /** `s.toLowerCase()` on the ASCII letters; other characters are kept. */
  function Lower(s: string): (r: string)
    ensures |r| == |s|
    ensures forall k :: 0 <= k < |s| ==> r[k] == LowerChar(s[k])
    ensures forall k :: 0 <= k < |r| ==> !IsUpperAscii(r[k])
  {
    seq(|s|, k requires 0 <= k < |s| => LowerChar(s[k]))
  }

  /** Lower-casing leaves a string without ASCII capitals unchanged. */
  lemma LowerUnchanged(s: string)
    requires forall k :: 0 <= k < |s| ==> !IsUpperAscii(s[k])
    ensures Lower(s) == s
  {
  }

  /** The position of the first `c` in `s`, or `|s|` when there is none. */
  function IndexOf(s: string, c: char): (i: nat)
    ensures i <= |s|
    ensures i < |s| ==> s[i] == c
    ensures c !in s[..i]
    ensures i == |s| <==> c !in s
  {
    if s == [] then 0
    else if s[0] == c then 0
    else 1 + IndexOf(s[1..], c)
  }

  /** `parts.join(sep)`. */
  function Join(parts: seq<string>, sep: char): string {
    if |parts| == 0 then []
    else if |parts| == 1 then parts[0]
    else parts[0] + [sep] + Join(parts[1..], sep)
  }

  /** `s.split(sep)`: the maximal separator-free pieces between separators, so
      joining them with the same separator gives back `s` exactly, runs of
      separators included. */
  function Split(s: string, sep: char): (parts: seq<string>)
    ensures |parts| >= 1
    ensures forall k :: 0 <= k < |parts| ==> sep !in parts[k]
    ensures Join(parts, sep) == s
    ensures |parts| == 1 <==> sep !in s
    decreases |s|
  {
    var i := IndexOf(s, sep);
    if i == |s| then [s]
    else
      var rest := Split(s[i + 1..], sep);
      SplitStep(s, sep, i, rest);
      [s[..i]] + rest
  }

  /** One step of `Split`: the text before the first separator, followed by
      the pieces of the text after it. */
  lemma SplitStep(s: string, sep: char, i: nat, rest: seq<string>)
    requires i < |s| && s[i] == sep && sep !in s[..i]
    requires |rest| >= 1 && forall k :: 0 <= k < |rest| ==> sep !in rest[k]
    requires Join(rest, sep) == s[i + 1..]
    ensures var parts := [s[..i]] + rest;
            && |parts| >= 2
            && (forall k :: 0 <= k < |parts| ==> sep !in parts[k])
            && Join(parts, sep) == s
  {
    var parts := [s[..i]] + rest;
    assert parts[1..] == rest;
    assert s == s[..i] + [sep] + s[i + 1..];
    forall k | 0 <= k < |parts|
      ensures sep !in parts[k]
    {
      if k > 0 {
        assert parts[k] == rest[k - 1];
      }
    }
  }

  /** The first piece of a split is the text before the first separator, and
      the remaining pieces joined back are the text after it. */
  lemma SplitFirst(s: string, sep: char)
    ensures Split(s, sep)[0] == s[..IndexOf(s, sep)]
    ensures IndexOf(s, sep) < |s| ==> Join(Split(s, sep)[1..], sep) == s[IndexOf(s, sep) + 1..]
  {
    var i := IndexOf(s, sep);
    if i < |s| {
      assert Split(s, sep)[1..] == Split(s[i + 1..], sep);
    }
  }

  /** Splitting undoes joining whenever no piece contains the separator. */
  lemma {:induction false} SplitJoin(parts: seq<string>, sep: char)
    requires |parts| >= 1
    requires forall k :: 0 <= k < |parts| ==> sep !in parts[k]
    ensures Split(Join(parts, sep), sep) == parts
    decreases |parts|
  {
    if |parts| > 1 {
      var a, t := parts[0], Join(parts[1..], sep);
      var s := a + [sep] + t;
      assert Join(parts, sep) == s;
      assert s[..|a|] == a && s[|a| + 1..] == t;
      SplitAt(s, sep, |a|);
      SplitJoin(parts[1..], sep);
      assert parts == [a] + parts[1..];
    }
  }

  /** A split at the first separator. */
  lemma SplitAt(s: string, sep: char, i: nat)
    requires i < |s| && s[i] == sep && sep !in s[..i]
    ensures Split(s, sep) == [s[..i]] + Split(s[i + 1..], sep)
  {
    IndexOfFirst(s, sep, i);
  }

  /** A separator at `i` with none before it is the first separator. */
  lemma IndexOfFirst(s: string, c: char, i: nat)
    requires i < |s| && s[i] == c && c !in s[..i]
    ensures IndexOf(s, c) == i
  {
  }
}

=== FILE: wrappers.dfy ===
/** The optional value used wherever the source reads a property that may be
    `undefined`. */
module Wrappers {

  datatype Option<+T> = None | Some(value: T)
}
